=== FILE: README.md ===
# Message input autocomplete, message actions and attachments — a Dafny model

This project models the decision logic of four React Native chat components:

- **AutoCompleteInput**: the message input's suggestion logic.
  - Command detection (`isCommand`, `handleCommand`).
  - Extraction of the active `@`/`:` mention token before the caret (`handleMentions`).
  - The branch order of one keystroke (`handleSuggestions`).
  - The check that drops provider responses echoing another query (`updateSuggestions`).
  - The splice that replaces the token with a selected suggestion and records the new stored selection end (`onSelectSuggestion`, `computeCaretPosition`).
  - "Caret" in the model (`Tracker.caret`) always means the stored selection end, `selectionEnd.current`. It is the position the component last recorded and the one the next keystroke reads. The text input's own cursor is not part of the model: the input is given no `selection` prop (AutoCompleteInput.tsx:286-297), so `onSelectSuggestion` changes only the stored value.
- **Message**: the per-message handlers.
  - Who may edit or delete a message.
  - The optimistic reaction toggle with its rollback (`handleReaction`).
  - Attachment actions (`handleAction`) and the soft delete (`handleDelete`).
  - The displayed reaction total (`getTotalReactionCount`).
  - `actionsEnabled`, the action flags taken from the channel config, and the memo comparator.
- **MessageActionSheet**: the option list built once on mount with repeated `splice(1, 0, x)`, and what pressing an option does.
- **Attachment**: which renderer(s) an attachment gets, the memo comparator, and how each renderer is picked from a prop override, the messages context or a default.

Modelling conventions:

- Every handler is a pure function. It returns the ordered list of things the component asks of its surroundings (an `Effect`): open or close the suggestion panel, query a provider, set the text, add a reaction locally, call the backend, commit or remove a message.
- The outcome of an awaited backend call (`Ok(value)` or `Fail`) is a parameter.
- A small "channel view" (`Message.Apply`, `Message.Run`) replays the state-changing effects. This states what a handler sequence does to the message.
- JavaScript semantics are written out in module `Js`:
  - truthiness of optional strings;
  - the `\s` / `trim` whitespace set;
  - `slice` with negative and out-of-range bounds;
  - `substring` with clamped and swapped bounds;
  - `indexOf`;
  - `replace` with a string pattern (first occurrence only);
  - `split` on one character.
- The two regular expressions of the autocomplete become explicit predicates:
  - `AutoComplete.MentionAt` for `[:@][^\s]*\s?[^\s]*$`;
  - `AutoComplete.TokenAt` for `\T[^\T\s]*$`.
  - Lemmas tie each predicate to its language (`MentionTailIff`, `TokenAtUnique`, `ScanBack`).

Two behaviours of the code worth knowing:

- **Stale responses.** The stale-response check compares each request's own query with the query its response echoes. It does not compare against the latest query. A late response for an earlier keystroke therefore still replaces the list (`AutoComplete.LateResponseForEarlierQueryAccepted`).
- **Stored selection end after a selection.** `onSelectSuggestion` sets the stored selection end (`selectionEnd.current`) to the token start plus the length of the inserted text, including its trailing space. It does not move the input's cursor. For the text "hello @ali" completed to "@alice" the stored value is 6 + 7 = 13. When no token start is found the start is -1, so the stored value is one short of the end of the inserted text, and -1 when nothing is inserted. The next keystroke then reads the text before that stored position (`AutoComplete.StaleSelectionEndReopens`). `AutoComplete.Select` stores this value as written; `AutoComplete.SelectCorrected` is the corrected version (see "## Findings").

Files:

- `js.dfy`: module `Js`.
- `autocomplete.dfy`: module `AutoComplete`.
- `message.dfy`: module `Message`.
- `action_sheet.dfy`: module `ActionSheet`.
- `attachment.dfy`: module `Attachment`.

## Model

| member | source | states |
|---|---|---|
| Js.TrimEnd | src/components/AutoCompleteInput/AutoCompleteInput.tsx:241 | the trimmed string is a prefix of the input, ends in a non-whitespace character, and everything removed is whitespace |
| Js.TrimStart | src/components/AutoCompleteInput/AutoCompleteInput.tsx:222 | the result is a suffix of the input starting with non-whitespace, and everything removed is whitespace |
| Js.TrimOfNonBlankHead | src/components/AutoCompleteInput/AutoCompleteInput.tsx:241 | trimming a string whose first character is not whitespace only removes its tail, and keeps that first character |
| Js.WhitespaceCountZero | src/components/AutoCompleteInput/AutoCompleteInput.tsx:239 | a string has zero whitespace characters exactly when none of its characters is whitespace |
| Js.WhitespaceCountAppend | src/components/AutoCompleteInput/AutoCompleteInput.tsx:239 | whitespace counts add up over concatenation |
| Js.SliceIndex | src/components/AutoCompleteInput/AutoCompleteInput.tsx:275 | a `slice` bound is clamped into the string: a negative bound counts from the end (0 at the least), and a bound past the end reads as the length |
| Js.Slice | src/components/AutoCompleteInput/AutoCompleteInput.tsx:185 | `slice` with in-range bounds is the subsequence, and crossed bounds give the empty string |
| Js.SlicePrefix | src/components/AutoCompleteInput/AutoCompleteInput.tsx:238 | `slice(0, n)` is the prefix of length min(n, length) |
| Js.SubstringIndex | src/components/AutoCompleteInput/AutoCompleteInput.tsx:199-202 | a `substring` bound is clamped into the string: negative bounds become 0 and bounds past the end become the length |
| Js.Substring | src/components/AutoCompleteInput/AutoCompleteInput.tsx:199-202 | `substring` with in-range bounds is the subsequence; `substring(0, -1)` is empty |
| Js.SubstringSymmetric | src/components/AutoCompleteInput/AutoCompleteInput.tsx:199-202 | swapping the two bounds of `substring` does not change the result |
| Js.IndexOfFrom | src/components/AutoCompleteInput/AutoCompleteInput.tsx:205 | the result is the leftmost occurrence at or after the start, or -1 exactly when there is none |
| Js.ReplacePrefix | src/components/AutoCompleteInput/AutoCompleteInput.tsx:205 | replacing a prefix of a string rewrites exactly that prefix and keeps the rest |
| Js.Split | src/components/AutoCompleteInput/AutoCompleteInput.tsx:37 | `split` gives at least one piece, and no piece contains the separator |
| Js.SplitJoin | src/components/AutoCompleteInput/AutoCompleteInput.tsx:37 | joining the pieces of `split` with the separator gives back the string |
| Js.SplitManyIff | src/components/AutoCompleteInput/AutoCompleteInput.tsx:37-41 | `split` yields more than one piece exactly when the separator occurs |
| AutoComplete.IsCommandIff | src/components/AutoCompleteInput/AutoCompleteInput.tsx:32-44 | text is a command exactly when it starts with `/` and contains no space character; tabs and newlines do not disqualify it |
| AutoComplete.CommandQuery | src/components/AutoCompleteInput/AutoCompleteInput.tsx:222 | for text starting with `/`, `/` followed by the query is the text with its trailing whitespace removed |
| AutoComplete.HandleCommand | src/components/AutoCompleteInput/AutoCompleteInput.tsx:214-226 | declines exactly the non-commands; otherwise tracking is on, the `/` provider is queried last, and the panel is opened only when tracking was off, so there are exactly one or two effects |
| AutoComplete.FirstWhitespace | src/components/AutoCompleteInput/AutoCompleteInput.tsx:239 | the position of the first whitespace character, with none before it |
| AutoComplete.MentionTailSound | src/components/AutoCompleteInput/AutoCompleteInput.tsx:239 | a string that splits as non-whitespace, at most one whitespace character, non-whitespace has at most one whitespace character |
| AutoComplete.MentionTailComplete | src/components/AutoCompleteInput/AutoCompleteInput.tsx:239 | a string with exactly one whitespace character splits at it into two whitespace-free parts |
| AutoComplete.MentionTailIff | src/components/AutoCompleteInput/AutoCompleteInput.tsx:239 | the tail `[^\s]*\s?[^\s]*` of the mention pattern accepts exactly the strings with at most one whitespace character |
| AutoComplete.FindMention | src/components/AutoCompleteInput/AutoCompleteInput.tsx:237-239 | the leftmost position at which the mention pattern matches up to the end, or none when no position matches |
| AutoComplete.LeftmostMention | src/components/AutoCompleteInput/AutoCompleteInput.tsx:237-241 | the first matching position is the one the left-to-right search returns |
| AutoComplete.MentionToken | src/components/AutoCompleteInput/AutoCompleteInput.tsx:241 | trimming a token keeps its trigger character in front, followed by the rest with trailing whitespace removed |
| AutoComplete.TrimEndCons | src/components/AutoCompleteInput/AutoCompleteInput.tsx:241 | trimming the end of a string does not touch a non-whitespace first character |
| AutoComplete.HandleMentions | src/components/AutoCompleteInput/AutoCompleteInput.tsx:228-256 | the caret is kept, and the handler stops tracking and only closes the panel exactly when no position before the caret starts a token |
| AutoComplete.MentionForeignTrigger | src/components/AutoCompleteInput/AutoCompleteInput.tsx:242-263 | a token whose first character is not a configured trigger changes nothing |
| AutoComplete.MentionQuery | src/components/AutoCompleteInput/AutoCompleteInput.tsx:258-269 | a token starting with a configured trigger turns tracking on, opens the panel only if tracking was off, and sends the `@` provider the token without its first character and trailing whitespace, with no other effect |
| AutoComplete.SpaceBeforeCaretIff | src/components/AutoCompleteInput/AutoCompleteInput.tsx:275 | `slice(caret - 1, caret) === ' '` holds exactly when the character just before the caret is a space, where a negative caret counts from the end of the text and a caret at 0 never qualifies |
| AutoComplete.Step | src/components/AutoCompleteInput/AutoCompleteInput.tsx:272-283 | a space before the caret while not tracking closes the panel; otherwise a command is handled by `handleCommand` alone, which turns tracking on, queries `/` and opens the panel only when tracking was off; otherwise mention handling decides; the stored selection end is never moved |
| AutoComplete.Deliver | src/components/AutoCompleteInput/AutoCompleteInput.tsx:124-133 | when no response echoes its own query, the suggestion list is unchanged |
| AutoComplete.DeliverLastAccepted | src/components/AutoCompleteInput/AutoCompleteInput.tsx:139-148 | the list ends up holding the data of the last response whose echoed query equals its request's query |
| AutoComplete.MismatchedResponseDropped | src/components/AutoCompleteInput/AutoCompleteInput.tsx:125-127 | a response that echoes a different query never reaches the list |
| AutoComplete.LateResponseForEarlierQueryAccepted | src/components/AutoCompleteInput/AutoCompleteInput.tsx:120-150 | a response for an earlier query that arrives after the later one still overwrites the list |
| AutoComplete.InsertedToken | src/components/AutoCompleteInput/AutoCompleteInput.tsx:170-179 | the inserted text is the formatted item plus a space when the item kind matches the trigger kind (users for mentions, the rest otherwise), else nothing |
| AutoComplete.TokenAtUnique | src/components/AutoCompleteInput/AutoCompleteInput.tsx:187-192 | at most one position matches the selection pattern up to the end |
| AutoComplete.ScanBack | src/components/AutoCompleteInput/AutoCompleteInput.tsx:187-192 | the backward scan finds the matching position, or -1 exactly when no position matches |
| AutoComplete.SelectionStart | src/components/AutoCompleteInput/AutoCompleteInput.tsx:185-192 | the start of the token before the caret, or -1 exactly when no position matches |
| AutoComplete.SelectionStartFindsToken | src/components/AutoCompleteInput/AutoCompleteInput.tsx:187-192 | whenever a position matches the selection pattern, the search returns it |
| AutoComplete.SpliceText | src/components/AutoCompleteInput/AutoCompleteInput.tsx:185-205 | the new value is the part before the token start (or nothing, without a token), the inserted text, and the value after the caret |
| AutoComplete.CaretAfterSelectAsWritten | src/components/AutoCompleteInput/AutoCompleteInput.tsx:29-30 | the stored selection end is the token start plus the inserted length, so it is at least one short of that length when the start is -1 |
| AutoComplete.CaretAfterSelect | src/components/AutoCompleteInput/AutoCompleteInput.tsx:194-207 | the corrected caret: the token start as the splice reads it (-1 as 0) plus the inserted length; it equals the as-written caret whenever a token was found |
| AutoComplete.Select | src/components/AutoCompleteInput/AutoCompleteInput.tsx:163-212 | tracking stops; the stored selection end is never below the inserted length minus one, and lies within the new value when a token was found; the panel closes before the text changes; the selection callback runs, last, exactly for a user picked on the mention trigger |
| AutoComplete.SelectCorrected | src/components/AutoCompleteInput/AutoCompleteInput.tsx:185-207 | the same text and effects as `onSelectSuggestion`, with the caret right after the inserted text in every case, so always within the new value |
| AutoComplete.SelectReplacesToken | src/components/AutoCompleteInput/AutoCompleteInput.tsx:185-205 | with a token before the caret, exactly that token is replaced by the inserted text and the rest of the value is kept |
| AutoComplete.SelectWithoutToken | src/components/AutoCompleteInput/AutoCompleteInput.tsx:185-205 | without a token, the inserted text replaces all the text before the caret |
| AutoComplete.SelectCaretAfterToken | src/components/AutoCompleteInput/AutoCompleteInput.tsx:194-207 | with the corrected caret, the new value up to the caret is the kept prefix followed by the inserted text, trailing space included |
| AutoComplete.SelectCaretWithToken | src/components/AutoCompleteInput/AutoCompleteInput.tsx:194-207 | with a token at position i, the caret as written is i plus the inserted length, the new value up to it is the text before the token and the inserted text, and the corrected caret agrees |
| AutoComplete.CaretAsWrittenFallsShort | src/components/AutoCompleteInput/AutoCompleteInput.tsx:194-207 | as written, with no token found the text is inserted at offset 0 but the caret is one position short of its end, -1 when nothing is inserted; the corrected caret is at its end |
| AutoComplete.CaretAsWrittenExample | src/components/AutoCompleteInput/AutoCompleteInput.tsx:187-207 | for "@a b" with the caret at the end, the as-written caret is 3 and the corrected caret is 4, after the inserted "@ab "; a command picked on `@` in "x" erases the text and leaves the caret at -1 |
| AutoComplete.StaleMentionToken | src/components/AutoCompleteInput/AutoCompleteInput.tsx:237-241 | in "@ab " read up to position 3, the mention token is "@ab" at position 0 and its query is "ab" |
| AutoComplete.StaleSelectionEndReopens | src/components/AutoCompleteInput/AutoCompleteInput.tsx:207 | with the stored selection end left at 3 in "@ab ", the next keystroke starts tracking `@` again and queries "ab"; with it at 4, the space before it closes the panel and tracking stays off |
| Message.IsMyMessage | src/components/Message/Message.tsx:108 | the client's user id equals the message's user id, where two absent ids count as equal |
| Message.IsAdmin | src/components/Message/Message.tsx:110-111 | an admin of the application or an admin member of the channel |
| Message.IsOwner | src/components/Message/Message.tsx:113 | the channel member role is owner; without a channel nobody is |
| Message.IsModerator | src/components/Message/Message.tsx:115-117 | the channel member role is channel_moderator or moderator |
| Message.CanEditMessage | src/components/Message/Message.tsx:108-120 | editing is allowed exactly for the author, a client admin, or a channel member whose role is admin, owner, moderator or channel_moderator |
| Message.CanDeleteMessage | src/components/Message/Message.tsx:122 | deleting is allowed under exactly the same condition as editing |
| Message.NonPrivilegedCannotEditOrDelete | src/components/Message/Message.tsx:108-122 | a user who is not the author and has no privileged role can neither edit nor delete |
| Message.LastOwnIndex | src/components/Message/Message.tsx:166-183 | the index of the last own reaction of the requested type, with no later match |
| Message.FindExistingReaction | src/components/Message/Message.tsx:164-183 | the loop finds an own reaction of the type exactly when one exists, and it is the last such entry |
| Message.ReactionCall | src/components/Message/Message.tsx:188-210 | without a channel or a truthy message id no call is made; otherwise exactly one call for that message id and reaction type, a delete exactly when the user already has a reaction of that type and a send otherwise |
| Message.HandleReaction | src/components/Message/Message.tsx:163-216 | the picker closes first; an existing reaction is removed locally and then deleted, otherwise a temporary one is added and then sent; without a channel nothing else happens; without a message id only the local change follows the close; the picker reopens and the original message is restored exactly when the call fails; with a channel and an id exactly one backend call is made, so there are three effects, five on failure |
| Message.Without | src/components/Message/Message.tsx:190 | removing a reaction drops exactly the entries of that user and type |
| Message.RunAppend | src/components/Message/Message.tsx:186-215 | replaying effects in two parts is replaying them in one |
| Message.RunThree | src/components/Message/Message.tsx:186-211 | closing the picker, one local change and backend calls change the view only by the local change |
| Message.RunNeutral | src/components/Message/Message.tsx:191-210 | backend calls alone do not change the view |
| Message.WithoutAbsent | src/components/Message/Message.tsx:190 | removing a reaction the list does not hold leaves the list unchanged |
| Message.ReactionRollbackRestores | src/components/Message/Message.tsx:212-215 | when the backend call fails, the message ends up exactly as the gesture found it |
| Message.ReactionAddCommits | src/components/Message/Message.tsx:194-210 | without an existing reaction and with the call succeeding, the temporary reaction is appended and nothing else changes |
| Message.ReactionRemoveCommits | src/components/Message/Message.tsx:189-193 | with an existing reaction and the call succeeding, the own entries of that type are dropped and nothing else changes |
| Message.ToggleTwiceRestores | src/components/Message/Message.tsx:163-216 | toggling a type twice with both calls succeeding gives back the original own reactions |
| Message.HandleAction | src/components/Message/Message.tsx:218-227 | without an id nothing happens; nothing is sent without a channel; a returned message is committed and the message is not removed; no message, or no channel, removes it from the list; a failed call commits and removes nothing; no reaction or delete call is made; with a channel exactly one action is sent, followed by at most one commit or removal; without a channel the removal is the only effect |
| Message.HandleActionOutcome | src/components/Message/Message.tsx:218-227 | replaying the effects, a returned message becomes the message; otherwise the message is removed once, last, nothing is committed and the message is unchanged; a failed call leaves the message unchanged |
| Message.HandleDelete | src/components/Message/Message.tsx:126-131 | with an id the delete is sent and the returned message replaces the old one; a soft delete never removes the message; without an id nothing happens; with an id the delete is sent once, followed by one commit unless it fails |
| Message.TotalReactionCount | src/components/Message/Message.tsx:231-253 | the total is the sum of the counts whose key is in the supported list (the emoji data when the list is missing), and 0 when there are no counts |
| Message.UnsupportedIgnored | src/components/Message/Message.tsx:246-248 | entries with an unsupported key do not change the total |
| Message.Supported | src/components/Message/Message.tsx:246 | keeps exactly the count entries whose key is supported |
| Message.SupportedSumBounded | src/components/Message/Message.tsx:244-251 | with non-negative counts the total lies between 0 and the sum of all counts, and equals that sum when every key is supported |
| Message.ActionsEnabled | src/components/Message/Message.tsx:255-256 | actions are offered only on a message of type regular whose status is received |
| Message.ActionsEnabledOnlyTypeAndStatus | src/components/Message/Message.tsx:255-256 | every received regular message gets actions, and the flag depends on the type and status alone |
| Message.ActionsEnabledChangeUnseen | src/components/Message/Message.tsx:255-256 | a regular message going from sending to received without a new `updated_at` passes the memo although its flag turns on |
| Message.ActionPropsAsWritten | src/components/Message/Message.tsx:258-263 | as written, replies are enabled exactly when reactions are, and both follow the channel's `reactions` flag |
| Message.ActionPropsFor | src/components/Message/Message.tsx:258-263 | reactions follow the `reactions` flag and replies follow the `replies` flag; without a channel both are off, as written |
| Message.RepliesFlagAsWrittenExample | src/components/Message/Message.tsx:262 | a channel with reactions on and replies off still gets replies offered as written |
| Message.SameMessageRenderProperties | src/components/Message/Message.tsx:297-313 | the memo comparator is an equivalence and ignores every field but `updated_at` |
| ActionSheet.ResolveActions | src/components/Message/MessageSimple/MessageActionSheet.tsx:132 | an unset `messageActions` takes the keys of the action table, an array is used as given, and only a non-array gives no list |
| ActionSheet.Allowed | src/components/Message/MessageSimple/MessageActionSheet.tsx:152-153 | nothing is allowed when the prop is not an array, and an allowed id comes from a non-empty array |
| ActionSheet.AllowedIndexOf | src/components/Message/MessageSimple/MessageActionSheet.tsx:152-153 | an id is allowed exactly when the prop is an array and `indexOf(id) > -1` |
| ActionSheet.ArrayIndexOf | src/components/Message/MessageSimple/MessageActionSheet.tsx:153 | the first position holding the id, or -1 exactly when the array does not hold it |
| ActionSheet.Added | src/components/Message/MessageSimple/MessageActionSheet.tsx:144-193 | the four conditional splices add one option per enabled id |
| ActionSheet.Splice1 | src/components/Message/MessageSimple/MessageActionSheet.tsx:155 | `splice(1, 0, x)` inserts after the first element, or appends to an empty list |
| ActionSheet.Enabled | src/components/Message/MessageSimple/MessageActionSheet.tsx:150-193 | only the four action ids can be enabled |
| ActionSheet.Reverse | src/components/Message/MessageSimple/MessageActionSheet.tsx:150-193 | the reversed list has the same length, with element i taken from the mirrored position |
| ActionSheet.SpliceAllSnoc | src/components/Message/MessageSimple/MessageActionSheet.tsx:150-193 | one more splice extends the repeated splice by one step |
| ActionSheet.SpliceAllNonEmpty | src/components/Message/MessageSimple/MessageActionSheet.tsx:150-193 | repeated `splice(1, 0, x)` into a non-empty list keeps its head, then the inserted items reversed, then the old tail |
| ActionSheet.SpliceAllShape | src/components/Message/MessageSimple/MessageActionSheet.tsx:150-193 | repeated `splice(1, 0, x)` into an empty list gives the first item, then the rest reversed |
| ActionSheet.SpliceIfStep | src/components/Message/MessageSimple/MessageActionSheet.tsx:150-193 | a conditional splice is the repeated splice over the enabled items so far |
| ActionSheet.AddedShape | src/components/Message/MessageSimple/MessageActionSheet.tsx:144-193 | the four conditional splices give the enabled ids, first one first, the rest in reverse |
| ActionSheet.Options | src/components/Message/MessageSimple/MessageActionSheet.tsx:142-196 | the options are cancel followed by the enabled ids in splice order |
| ActionSheet.ReverseMembers | src/components/Message/MessageSimple/MessageActionSheet.tsx:150-193 | reversing keeps exactly the same elements |
| ActionSheet.HeadThenReversedMembers | src/components/Message/MessageSimple/MessageActionSheet.tsx:150-193 | the splice order holds exactly the enabled items |
| ActionSheet.EnabledMembers | src/components/Message/MessageSimple/MessageActionSheet.tsx:150-193 | each id is enabled exactly when its condition holds |
| ActionSheet.OptionsMembers | src/components/Message/MessageSimple/MessageActionSheet.tsx:142-196 | the options are exactly cancel and the enabled ids |
| ActionSheet.OptionMembership | src/components/Message/MessageSimple/MessageActionSheet.tsx:132-196 | reactions are offered iff enabled and allowed; reply iff enabled, allowed and not in a thread list; edit and delete iff allowed and their predicate returns true |
| ActionSheet.NotArrayOnlyCancel | src/components/Message/MessageSimple/MessageActionSheet.tsx:150-193 | a `messageActions` prop that is not an array leaves cancel as the only option |
| ActionSheet.AllEnabledList | src/components/Message/MessageSimple/MessageActionSheet.tsx:150-193 | with every condition met, the enabled ids in the order the source checks them: reactions, reply, edit, delete |
| ActionSheet.HeadThenReversedFour | src/components/Message/MessageSimple/MessageActionSheet.tsx:150-193 | four splices at position 1 leave the first item, then the other three in reverse |
| ActionSheet.AllEnabledOrder | src/components/Message/MessageSimple/MessageActionSheet.tsx:150-193 | with everything enabled the options are cancel, reactions, delete, edit, reply |
| ActionSheet.AppendNoDup | src/components/Message/MessageSimple/MessageActionSheet.tsx:195 | concatenating two duplicate-free lists with no common element gives a duplicate-free list |
| ActionSheet.EnabledNoDup | src/components/Message/MessageSimple/MessageActionSheet.tsx:150-193 | with distinct ids, no id is enabled twice |
| ActionSheet.ReverseNoDup | src/components/Message/MessageSimple/MessageActionSheet.tsx:150-193 | reversing keeps a list duplicate-free |
| ActionSheet.TailNoDup | src/components/Message/MessageSimple/MessageActionSheet.tsx:150-193 | the tail of a duplicate-free list is duplicate-free and does not hold the head |
| ActionSheet.HeadThenReversedNoDup | src/components/Message/MessageSimple/MessageActionSheet.tsx:150-193 | the splice order keeps a list duplicate-free |
| ActionSheet.OptionsNoDuplicates | src/components/Message/MessageSimple/MessageActionSheet.tsx:142-196 | with distinct ids no option appears twice |
| ActionSheet.OnActionPress | src/components/Message/MessageSimple/MessageActionSheet.tsx:198-216 | each action id runs its own handler; any other id only hides the sheet; the sheet is hidden last unless the awaited delete rejects |
| ActionSheet.PressCancelOnlyHides | src/components/Message/MessageSimple/MessageActionSheet.tsx:220-222 | pressing the first option (cancel) only hides the sheet |
| Attachment.Classify | src/components/Attachment/Attachment.tsx:81-135 | exactly one primary renderer, in priority order: giphy/imgur, link preview, image gallery, file/audio, then the card for everything else (playable video included); each renderer is chosen exactly in its own case; an actions renderer follows exactly when a gallery or non-video card has actions |
| Attachment.OnePrimary | src/components/Attachment/Attachment.tsx:83-135 | the primary renderer is first and only there, and an actions renderer can only be second |
| Attachment.UrlPreviewIgnoresType | src/components/Attachment/Attachment.tsx:83-92 | a link with an image is a link preview whatever its type, unless the type is giphy or imgur |
| Attachment.PlayableVideoHidesActions | src/components/Attachment/Attachment.tsx:112-121 | a video with both an asset and an image gets a card without actions, even when it has actions |
| Attachment.SameAttachmentRenderProperties | src/components/Attachment/Attachment.tsx:138-159 | the memo comparator is an equivalence that ignores id, type, title link, scrape URL and asset URL |
| Attachment.SameRenderSameSlots | src/components/Attachment/Attachment.tsx:138-159 | memo-equal attachments that also agree on the fields the comparator skips get the same renderers |
| Attachment.TypeChangeUnseen | src/components/Attachment/Attachment.tsx:150-158 | a change of type alone passes the memo although it changes the renderer |
| Attachment.Pick | src/components/Attachment/Attachment.tsx:236-246 | a prop override wins, then the context's component, then the default |
| Attachment.Resolve | src/components/Attachment/Attachment.tsx:236-246 | a slot is filled by its prop override, else the context's, else a default, which is the card for the card and link-preview slots and the slot's own component for each of the actions, file, gallery and giphy slots |
| Attachment.Render | src/components/Attachment/Attachment.tsx:232-246 | a missing attachment renders nothing; otherwise one resolved component per renderer slot |
| Attachment.PropOverridesWin | src/components/Attachment/Attachment.tsx:236-246 | with every override given as a prop, every rendered component is that override, whatever the context holds |
| Attachment.ContextUsedWithoutProps | src/components/Attachment/Attachment.tsx:236-246 | with no prop overrides, every slot is filled from the context when it has one |
| Attachment.UrlPreviewDefaultsToCard | src/components/Attachment/Attachment.tsx:246 | with no overrides anywhere, a link preview is drawn by the default card |

## Left out

- The 100 ms timer of `handleSuggestions` is not modelled; one keystroke is one synchronous `AutoComplete.Step`. Interleavings of timers are out of scope.
- The awaits inside the handlers are not modelled beyond their outcome. The awaited provider call, backend call or delete is a parameter. Concurrency between handlers is out of scope.
- The `value` argument passed to the data providers, and the providers themselves, are foreign code. Responses are modelled as `(query issued, query echoed, data)` triples.
- Triggers the host did not configure are not modelled. The component looks `/` or `@` up in its trigger settings without checking, and throws when they are missing.
- The `!trigger` guard of `onSelectSuggestion` is not modelled. A trigger is a character here, so the guard cannot fire.
- `$` patterns in replacement strings are not interpreted by `Js.Replace`. The replacement text is the formatted suggestion, so a `$` in a user name is taken literally by this model.
- The `console.warn` for foreign reactions in `own_reactions` is not modelled.
- Reaction timestamps are not modelled. The SDK's channel state is abstracted: adding a reaction appends it to the user's own reactions, and removing drops that user's entries of that type.
- `handleEdit`, `handleFlag`, `handleMute`, `handleRetry`, `showActionSheet` and `openReactionPicker` are not modelled. They are one-line pass-throughs to foreign code.
- Date objects in the memo comparators are compared as values. The source compares them with `===`.
- The option-building effect runs once on mount, so later prop changes are not reflected. Option titles and their translation are left out.
- String offsets and lengths count characters here. The source's `selection.end`, `slice`, `substring`, `search` and `length` count UTF-16 code units, so each character outside the Basic Multilingual Plane (an emoji, say) before the caret puts the source's numbers one higher than the model's.
- The press handler handed to every renderer (the prop, else the context's `onPressInMessage`) is not modelled, because the renderers are opaque here.
- IsMentionTrigger: the helper `isMentionTrigger` is imported from the library's utilities (AutoCompleteInput.tsx:18), whose source is not part of this model. It is modelled as `trigger === '@'`, which is how the trigger map used here distinguishes the mention trigger from the command trigger `/`.
- Styling, theming, layout and the remaining components of the library are not part of this model.

## Findings

| source | as written | input that shows it | evidently intended | confidence | as-written member | corrected member |
|---|---|---|---|---|---|---|
| src/components/AutoCompleteInput/AutoCompleteInput.tsx:194-207 | the caret is `startOfTokenPosition + token.length`, where the start is -1 when the selection pattern does not match, while the splice's `substring(0, -1)` inserts the text at offset 0 | value "@a b", caret 4, trigger `@`, a user formatted as "@ab": the mention scan accepts "@a b" (one inner space) but the selection pattern does not match, so the text becomes "@ab " and the stored selection end (`selectionEnd.current`) is set to 3; the next keystroke then reads "@ab" before position 3 and keeps the panel tracking with the query "ab", where position 4 would close it (`AutoComplete.StaleSelectionEndReopens`) | the stored selection end right after the inserted text, 4 (and 0 rather than -1 when nothing is inserted) | not executed | AutoComplete.CaretAsWrittenFallsShort | AutoComplete.SelectCorrected |
| src/components/Message/Message.tsx:262 | `repliesEnabled` is read from the channel config's `reactions` flag | a channel whose config has reactions on and replies off: the reply option is still offered | `repliesEnabled` follows the `replies` flag | not executed | Message.ActionPropsAsWritten | Message.ActionPropsFor |

=== FILE: action_sheet.dfy ===
/** The message action sheet: the option list it builds once on mount, and
    the dispatch of a pressed option to the message handlers.

    The ids of the four actions come from a table that is not part of this
    model; they are parameters here, required to be distinct only where a
    property needs it. Option titles are translations and are left out, so
    an option is its id. */
module ActionSheet {
  import opened Js

  datatype ActionIds = ActionIds(edit: string, delete: string, reply: string, reactions: string)

  /** The id of the option that is always first. */
  const Cancel: string := "cancel"

  /** The four ids differ from each other and from the cancel option. */
  predicate Distinct(ids: ActionIds) {
    && ids.edit != ids.delete && ids.edit != ids.reply && ids.edit != ids.reactions
    && ids.delete != ids.reply && ids.delete != ids.reactions
    && ids.reply != ids.reactions
    && Cancel !in {ids.edit, ids.delete, ids.reply, ids.reactions}
  }

  /** The `messageActions` prop: left unset (it then defaults to the keys of
      the action table), an array of ids, or a non-array such as `false`. */
  datatype MessageActions = Unset | NotArray | Actions(list: seq<string>)

  /** The props the option list depends on. `canEdit` and `canDelete` are
      the results of the optional predicates, None when a predicate is
      missing. */
  datatype SheetProps = SheetProps(
    reactionsEnabled: bool,
    repliesEnabled: bool,
    threadList: bool,
    canEdit: Option<bool>,
    canDelete: Option<bool>,
    messageActions: MessageActions)

  /** A missing predicate counts as false. */
  predicate Holds(b: Option<bool>) {
    b == Some(true)
  }

  /** The allowed ids, or None when the prop is not an array; an unset prop
      takes the table's keys. */
  function ResolveActions(prop: MessageActions, tableKeys: seq<string>): (r: Option<seq<string>>)
    ensures r.None? <==> prop == NotArray
    ensures prop == Unset ==> r == Some(tableKeys)
    ensures prop.Actions? ==> r == Some(prop.list)
  {
    match prop
    case Unset => Some(tableKeys)
    case NotArray => None
    case Actions(list) => Some(list)
  }

  /** `Array.isArray(messageActions) && messageActions.indexOf(id) > -1`. */
  function Allowed(actions: Option<seq<string>>, id: string): (r: bool)
    ensures actions.None? ==> !r
    ensures r ==> actions.Some? && |actions.value| > 0
  {
    actions.Some? && id in actions.value
  }

  /** The membership test is the source's `indexOf(id) > -1`. */
  lemma AllowedIndexOf(actions: Option<seq<string>>, id: string)
    ensures Allowed(actions, id) <==> actions.Some? && ArrayIndexOf(actions.value, id) > -1
  {
  }

  /** `Array.prototype.indexOf`: the first position holding `x`, or -1. */
  function ArrayIndexOf(xs: seq<string>, x: string): (r: int)
    ensures -1 <= r < |xs|
    ensures r >= 0 ==> xs[r] == x && forall j :: 0 <= j < r ==> xs[j] != x
    ensures r == -1 <==> x !in xs
    decreases |xs|
  {
    if |xs| == 0 then -1
    else if xs[0] == x then 0
    else
      var k := ArrayIndexOf(xs[1..], x);
      if k < 0 then -1 else k + 1
  }

  /** `list.splice(1, 0, x)`: insert at position 1, or at the end of a shorter list. */
  function Splice1(list: seq<string>, x: string): (r: seq<string>)
    ensures |r| == |list| + 1
    ensures |list| == 0 ==> r == [x]
    ensures |list| > 0 ==> r == [list[0], x] + list[1..]
  {
    var at := if |list| < 1 then |list| else 1;
    list[..at] + [x] + list[at..]
  }

  /** One conditional `splice` of the option-building effect. */
  function SpliceIf(list: seq<string>, cond: bool, x: string): seq<string> {
    if cond then Splice1(list, x) else list
  }

  predicate ReactionsOn(p: SheetProps, ids: ActionIds, keys: seq<string>) {
    p.reactionsEnabled && Allowed(ResolveActions(p.messageActions, keys), ids.reactions)
  }

  predicate ReplyOn(p: SheetProps, ids: ActionIds, keys: seq<string>) {
    p.repliesEnabled && Allowed(ResolveActions(p.messageActions, keys), ids.reply) && !p.threadList
  }

  predicate EditOn(p: SheetProps, ids: ActionIds, keys: seq<string>) {
    Allowed(ResolveActions(p.messageActions, keys), ids.edit) && Holds(p.canEdit)
  }

  predicate DeleteOn(p: SheetProps, ids: ActionIds, keys: seq<string>) {
    Allowed(ResolveActions(p.messageActions, keys), ids.delete) && Holds(p.canDelete)
  }

  /** The options added after cancel, by the four conditional splices in
      source order: reactions, reply, edit, delete. */
  function Added(p: SheetProps, ids: ActionIds, keys: seq<string>): (a: seq<string>)
    ensures |a| == |Enabled(p, ids, keys)|
  {
    var a1 := SpliceIf([], ReactionsOn(p, ids, keys), ids.reactions);
    var a2 := SpliceIf(a1, ReplyOn(p, ids, keys), ids.reply);
    var a3 := SpliceIf(a2, EditOn(p, ids, keys), ids.edit);
    SpliceIf(a3, DeleteOn(p, ids, keys), ids.delete)
  }

  /** The enabled ids in the order the source considers them. */
  function Enabled(p: SheetProps, ids: ActionIds, keys: seq<string>): (e: seq<string>)
    ensures forall x :: x in e ==> x in {ids.edit, ids.delete, ids.reply, ids.reactions}
  {
    (if ReactionsOn(p, ids, keys) then [ids.reactions] else [])
    + (if ReplyOn(p, ids, keys) then [ids.reply] else [])
    + (if EditOn(p, ids, keys) then [ids.edit] else [])
    + (if DeleteOn(p, ids, keys) then [ids.delete] else [])
  }

  function Reverse(xs: seq<string>): (r: seq<string>)
    ensures |r| == |xs|
    ensures forall i :: 0 <= i < |xs| ==> r[i] == xs[|xs| - 1 - i]
    decreases |xs|
  {
    if |xs| == 0 then [] else Reverse(xs[1..]) + [xs[0]]
  }

  /** The shape repeated `splice(1, 0, x)` leaves: the first insertion at the
      head, every later one ahead of the earlier ones. */
  function HeadThenReversed(xs: seq<string>): seq<string> {
    if |xs| == 0 then [] else [xs[0]] + Reverse(xs[1..])
  }

  /** Repeated `splice(1, 0, x)` over `xs`. */
  function SpliceAll(acc: seq<string>, xs: seq<string>): seq<string>
    decreases |xs|
  {
    if |xs| == 0 then acc else SpliceAll(Splice1(acc, xs[0]), xs[1..])
  }

  lemma {:induction false} SpliceAllSnoc(acc: seq<string>, xs: seq<string>, x: string)
    ensures SpliceAll(acc, xs + [x]) == Splice1(SpliceAll(acc, xs), x)
    decreases |xs|
  {
    if |xs| > 0 {
      assert (xs + [x])[1..] == xs[1..] + [x];
      SpliceAllSnoc(Splice1(acc, xs[0]), xs[1..], x);
    }
  }

  lemma {:induction false} SpliceAllNonEmpty(acc: seq<string>, xs: seq<string>)
    requires |acc| > 0
    ensures SpliceAll(acc, xs) == [acc[0]] + Reverse(xs) + acc[1..]
    decreases |xs|
  {
    if |xs| > 0 {
      SpliceAllNonEmpty(Splice1(acc, xs[0]), xs[1..]);
      assert Reverse(xs) == Reverse(xs[1..]) + [xs[0]];
    }
  }

  /** Splicing into an empty list gives the first element, then the rest reversed. */
  lemma SpliceAllShape(xs: seq<string>)
    ensures SpliceAll([], xs) == HeadThenReversed(xs)
  {
    if |xs| > 0 {
      SpliceAllNonEmpty([xs[0]], xs[1..]);
    }
  }

  lemma SpliceIfStep(xs: seq<string>, cond: bool, x: string)
    ensures SpliceIf(SpliceAll([], xs), cond, x) == SpliceAll([], xs + (if cond then [x] else []))
  {
    if cond {
      SpliceAllSnoc([], xs, x);
    } else {
      assert xs + [] == xs;
    }
  }

  /** The effect's four splices build the enabled ids in head-then-reversed order. */
  lemma AddedShape(p: SheetProps, ids: ActionIds, keys: seq<string>)
    ensures Added(p, ids, keys) == HeadThenReversed(Enabled(p, ids, keys))
  {
    var c1, c2, c3, c4 := ReactionsOn(p, ids, keys), ReplyOn(p, ids, keys), EditOn(p, ids, keys), DeleteOn(p, ids, keys);
    var e1 := if c1 then [ids.reactions] else [];
    var e2 := e1 + (if c2 then [ids.reply] else []);
    var e3 := e2 + (if c3 then [ids.edit] else []);
    var e4 := e3 + (if c4 then [ids.delete] else []);
    assert SpliceAll([], []) == [];
    SpliceIfStep([], c1, ids.reactions);
    assert [] + e1 == e1;
    SpliceIfStep(e1, c2, ids.reply);
    SpliceIfStep(e2, c3, ids.edit);
    SpliceIfStep(e3, c4, ids.delete);
    assert Enabled(p, ids, keys) == e4;
    SpliceAllShape(e4);
  }

  /** The option list after the mount effect: cancel, then the added options. */
  function Options(p: SheetProps, ids: ActionIds, keys: seq<string>): (r: seq<string>)
    ensures |r| >= 1 && r[0] == Cancel
    ensures r[1..] == HeadThenReversed(Enabled(p, ids, keys))
  {
    AddedShape(p, ids, keys);
    [Cancel] + Added(p, ids, keys)
  }

  lemma ReverseMembers(xs: seq<string>)
    ensures forall x :: x in Reverse(xs) <==> x in xs
  {
    var r := Reverse(xs);
    forall x | x in xs ensures x in r {
      var i :| 0 <= i < |xs| && xs[i] == x;
      assert r[|xs| - 1 - i] == x;
    }
  }

  lemma HeadThenReversedMembers(xs: seq<string>)
    ensures forall x :: x in HeadThenReversed(xs) <==> x in xs
  {
    if |xs| > 0 {
      ReverseMembers(xs[1..]);
      assert xs == [xs[0]] + xs[1..];
    }
  }

  lemma EnabledMembers(p: SheetProps, ids: ActionIds, keys: seq<string>)
    requires Distinct(ids)
    ensures ids.reactions in Enabled(p, ids, keys) <==> ReactionsOn(p, ids, keys)
    ensures ids.reply in Enabled(p, ids, keys) <==> ReplyOn(p, ids, keys)
    ensures ids.edit in Enabled(p, ids, keys) <==> EditOn(p, ids, keys)
    ensures ids.delete in Enabled(p, ids, keys) <==> DeleteOn(p, ids, keys)
  {
  }

  /** With distinct ids, each option is present exactly when its condition holds. */
  lemma OptionMembership(p: SheetProps, ids: ActionIds, keys: seq<string>)
    requires Distinct(ids)
    ensures ids.reactions in Options(p, ids, keys) <==>
      p.reactionsEnabled && Allowed(ResolveActions(p.messageActions, keys), ids.reactions)
    ensures ids.reply in Options(p, ids, keys) <==>
      p.repliesEnabled && Allowed(ResolveActions(p.messageActions, keys), ids.reply) && !p.threadList
    ensures ids.edit in Options(p, ids, keys) <==>
      Allowed(ResolveActions(p.messageActions, keys), ids.edit) && p.canEdit == Some(true)
    ensures ids.delete in Options(p, ids, keys) <==>
      Allowed(ResolveActions(p.messageActions, keys), ids.delete) && p.canDelete == Some(true)
  {
    OptionsMembers(p, ids, keys);
    EnabledMembers(p, ids, keys);
  }

  /** The options are cancel and the enabled ids. */
  lemma OptionsMembers(p: SheetProps, ids: ActionIds, keys: seq<string>)
    ensures forall x :: x in Options(p, ids, keys) <==> x == Cancel || x in Enabled(p, ids, keys)
  {
    var r := Options(p, ids, keys);
    HeadThenReversedMembers(Enabled(p, ids, keys));
    assert r == [Cancel] + r[1..];
  }

  /** A non-array `messageActions` leaves cancel as the only option. */
  lemma NotArrayOnlyCancel(p: SheetProps, ids: ActionIds, keys: seq<string>)
    requires p.messageActions == NotArray
    ensures Options(p, ids, keys) == [Cancel]
  {
    assert Enabled(p, ids, keys) == [];
  }

  /** With everything enabled, the four ids in the order the source checks them. */
  lemma AllEnabledList(p: SheetProps, ids: ActionIds, keys: seq<string>)
    requires ReactionsOn(p, ids, keys) && ReplyOn(p, ids, keys)
    requires EditOn(p, ids, keys) && DeleteOn(p, ids, keys)
    ensures Enabled(p, ids, keys) == [ids.reactions, ids.reply, ids.edit, ids.delete]
  {
  }

  lemma HeadThenReversedFour(a: string, b: string, c: string, d: string)
    ensures HeadThenReversed([a, b, c, d]) == [a, d, c, b]
  {
    var xs := [a, b, c, d];
    var rv := Reverse(xs[1..]);
    assert |rv| == 3 && rv[0] == d && rv[1] == c && rv[2] == b;
    assert rv == [d, c, b];
  }

  /** With everything enabled the order is reactions, delete, edit, reply. */
  lemma AllEnabledOrder(p: SheetProps, ids: ActionIds, keys: seq<string>)
    requires ReactionsOn(p, ids, keys) && ReplyOn(p, ids, keys)
    requires EditOn(p, ids, keys) && DeleteOn(p, ids, keys)
    ensures Options(p, ids, keys) == [Cancel, ids.reactions, ids.delete, ids.edit, ids.reply]
  {
    AllEnabledList(p, ids, keys);
    HeadThenReversedFour(ids.reactions, ids.reply, ids.edit, ids.delete);
    var o := Options(p, ids, keys);
    assert o == [Cancel] + o[1..];
  }

  predicate NoDup(xs: seq<string>) {
    forall i, j :: 0 <= i < j < |xs| ==> xs[i] != xs[j]
  }

  lemma AppendNoDup(a: seq<string>, b: seq<string>)
    requires NoDup(a) && NoDup(b)
    requires forall x :: x in a ==> x !in b
    ensures NoDup(a + b)
  {
    var ab := a + b;
    forall i, j | 0 <= i < j < |ab| ensures ab[i] != ab[j] {
      if j >= |a| && i < |a| {
        assert ab[i] in a && ab[j] == b[j - |a|];
      }
    }
  }

  lemma EnabledNoDup(p: SheetProps, ids: ActionIds, keys: seq<string>)
    requires Distinct(ids)
    ensures NoDup(Enabled(p, ids, keys))
  {
    var s1 := if ReactionsOn(p, ids, keys) then [ids.reactions] else [];
    var s2 := if ReplyOn(p, ids, keys) then [ids.reply] else [];
    var s3 := if EditOn(p, ids, keys) then [ids.edit] else [];
    var s4 := if DeleteOn(p, ids, keys) then [ids.delete] else [];
    AppendNoDup(s1, s2);
    assert forall x :: x in s1 + s2 ==> x == ids.reactions || x == ids.reply;
    AppendNoDup(s1 + s2, s3);
    assert forall x :: x in s1 + s2 + s3 ==> x == ids.reactions || x == ids.reply || x == ids.edit;
    AppendNoDup(s1 + s2 + s3, s4);
  }

  lemma ReverseNoDup(xs: seq<string>)
    requires NoDup(xs)
    ensures NoDup(Reverse(xs))
  {
    var r := Reverse(xs);
    forall i, j | 0 <= i < j < |r| ensures r[i] != r[j] {
      assert r[i] == xs[|xs| - 1 - i] && r[j] == xs[|xs| - 1 - j];
    }
  }

  lemma TailNoDup(xs: seq<string>)
    requires |xs| > 0 && NoDup(xs)
    ensures NoDup(xs[1..]) && xs[0] !in xs[1..]
  {
    var tail := xs[1..];
    forall i, j | 0 <= i < j < |tail| ensures tail[i] != tail[j] {
      assert tail[i] == xs[i + 1] && tail[j] == xs[j + 1];
    }
    forall k | 0 <= k < |tail| ensures tail[k] != xs[0] {
      assert tail[k] == xs[k + 1];
    }
  }

  lemma HeadThenReversedNoDup(xs: seq<string>)
    requires NoDup(xs)
    ensures NoDup(HeadThenReversed(xs))
  {
    if |xs| > 0 {
      TailNoDup(xs);
      ReverseNoDup(xs[1..]);
      ReverseMembers(xs[1..]);
      AppendNoDup([xs[0]], Reverse(xs[1..]));
    }
  }

  /** With distinct ids no option appears twice. */
  lemma OptionsNoDuplicates(p: SheetProps, ids: ActionIds, keys: seq<string>)
    requires Distinct(ids)
    ensures NoDup(Options(p, ids, keys))
  {
    var e := Enabled(p, ids, keys);
    EnabledNoDup(p, ids, keys);
    HeadThenReversedNoDup(e);
    HeadThenReversedMembers(e);
    var h := HeadThenReversed(e);
    assert Options(p, ids, keys) == [Cancel] + h;
    AppendNoDup([Cancel], h);
  }

  // ---------------------------------------------------------------------
  // Dispatch
  // ---------------------------------------------------------------------

  datatype SheetEffect = HandleEdit | HandleDelete | OpenThread | OpenReactionPicker | HideSheet

  /** `onActionPress`: the first matching case runs its handler, then the
      sheet is hidden. The delete handler is awaited: when it rejects, the
      rejection leaves the function before the sheet is hidden. */
  function OnActionPress(action: string, ids: ActionIds, deleteRejects: bool): (r: seq<SheetEffect>)
    ensures 1 <= |r| <= 2
    ensures r[|r| - 1] == HideSheet <==> !(action != ids.edit && action == ids.delete && deleteRejects)
    ensures forall i :: 0 <= i < |r| - 1 ==> r[i] != HideSheet
    ensures Distinct(ids) && action == ids.edit ==> r[0] == HandleEdit
    ensures Distinct(ids) && action == ids.delete ==> r[0] == HandleDelete
    ensures Distinct(ids) && action == ids.reply ==> r[0] == OpenThread
    ensures Distinct(ids) && action == ids.reactions ==> r[0] == OpenReactionPicker
    ensures action !in {ids.edit, ids.delete, ids.reply, ids.reactions} ==> r == [HideSheet]
  {
    if action == ids.edit then [HandleEdit, HideSheet]
    else if action == ids.delete then (if deleteRejects then [HandleDelete] else [HandleDelete, HideSheet])
    else if action == ids.reply then [OpenThread, HideSheet]
    else if action == ids.reactions then [OpenReactionPicker, HideSheet]
    else [HideSheet]
  }

  /** Pressing the cancel option only hides the sheet. */
  lemma PressCancelOnlyHides(p: SheetProps, ids: ActionIds, keys: seq<string>, deleteRejects: bool)
    requires Distinct(ids)
    ensures OnActionPress(Options(p, ids, keys)[0], ids, deleteRejects) == [HideSheet]
  {
  }
}

=== FILE: attachment.dfy ===
/** The attachment component: which renderer an attachment gets, the memo
    comparator that decides whether it re-renders, and how each renderer is
    chosen among a prop override, the messages context and the default.

    Renderers are opaque names here; an attachment field that JavaScript
    reads for truthiness is an optional string that counts when present
    and non-empty. */
module Attachment {
  import opened Js

  /** An action button of an attachment; only the count matters here. */
  datatype Action = Action(name: string, value: string)

  datatype Att = Att(
    id: Option<string>,
    kind: Option<string>,
    titleLink: Option<string>,
    ogScrapeUrl: Option<string>,
    imageUrl: Option<string>,
    thumbUrl: Option<string>,
    assetUrl: Option<string>,
    actions: Option<seq<Action>>)

  /** The renderer slots the component fills. */
  datatype Slot = GiphySlot | UrlPreviewSlot | GallerySlot | FileSlot | CardSlot | ActionsSlot

  /** `!!attachment.actions?.length`. */
  predicate HasActions(a: Att) {
    a.actions.Some? && |a.actions.value| > 0
  }

  predicate IsType(a: Att, t: string) {
    a.kind == Some(t)
  }

  predicate IsGiphy(a: Att) {
    IsType(a, "giphy") || IsType(a, "imgur")
  }

  predicate IsUrlPreview(a: Att) {
    (Truthy(a.titleLink) || Truthy(a.ogScrapeUrl)) && (Truthy(a.imageUrl) || Truthy(a.thumbUrl))
  }

  predicate IsPlayableVideo(a: Att) {
    IsType(a, "video") && Truthy(a.assetUrl) && Truthy(a.imageUrl)
  }

  predicate IsPrimary(s: Slot) {
    s != ActionsSlot
  }

  /** The renderers `AttachmentWithContext` returns, in order. The checks run
      in a fixed priority: giphy/imgur, link preview, image, file/audio,
      playable video, and the card fallback. */
  function Classify(a: Att): (r: seq<Slot>)
    ensures 1 <= |r| <= 2 && IsPrimary(r[0])
    ensures |r| == 2 ==> r[1] == ActionsSlot && HasActions(a)
    ensures IsGiphy(a) ==> r == [GiphySlot]
    ensures !IsGiphy(a) && IsUrlPreview(a) ==> r == [UrlPreviewSlot]
    ensures r[0] == GiphySlot <==> IsGiphy(a)
    ensures r[0] == UrlPreviewSlot <==> !IsGiphy(a) && IsUrlPreview(a)
    ensures r[0] == GallerySlot <==> !IsGiphy(a) && !IsUrlPreview(a) && IsType(a, "image")
    ensures r[0] == CardSlot <==>
      && !IsGiphy(a) && !IsUrlPreview(a) && !IsType(a, "image")
      && !IsType(a, "file") && !IsType(a, "audio")
    ensures r[0] == GallerySlot ==> (|r| == 2 <==> HasActions(a))
    ensures r[0] == CardSlot && !IsPlayableVideo(a) ==> (|r| == 2 <==> HasActions(a))
    ensures r[0] in {GiphySlot, UrlPreviewSlot, FileSlot} ==> |r| == 1
    ensures r[0] == FileSlot <==>
      !IsGiphy(a) && !IsUrlPreview(a) && (IsType(a, "file") || IsType(a, "audio"))
  {
    var actions := if HasActions(a) then [ActionsSlot] else [];
    if IsGiphy(a) then [GiphySlot]
    else if IsUrlPreview(a) then [UrlPreviewSlot]
    else if IsType(a, "image") then [GallerySlot] + actions
    else if IsType(a, "file") || IsType(a, "audio") then [FileSlot]
    else if IsPlayableVideo(a) then [CardSlot]
    else [CardSlot] + actions
  }

  /** Exactly one primary renderer per attachment, and the actions renderer
      never comes first or twice. */
  lemma OnePrimary(a: Att)
    ensures var r := Classify(a);
      && (forall i :: 0 <= i < |r| && IsPrimary(r[i]) ==> i == 0)
      && (forall i :: 0 <= i < |r| && r[i] == ActionsSlot ==> i == 1)
  {
  }

  /** A link preview wins over the attachment type, except giphy and imgur. */
  lemma UrlPreviewIgnoresType(a: Att, t: string)
    requires IsUrlPreview(a) && t != "giphy" && t != "imgur"
    ensures Classify(a.(kind := Some(t))) == [UrlPreviewSlot]
  {
  }

  /** A video with both an asset and an image shows a card without actions,
      even when it has actions. */
  lemma PlayableVideoHidesActions(a: Att)
    requires IsPlayableVideo(a) && !IsUrlPreview(a)
    ensures Classify(a) == [CardSlot]
  {
  }

  /** The memo comparator: same number of actions (both absent counts as
      same), same image URL, same thumbnail URL. */
  predicate SameAttachmentRender(prev: Att, next: Att) {
    && ActionCount(prev) == ActionCount(next)
    && prev.imageUrl == next.imageUrl
    && prev.thumbUrl == next.thumbUrl
  }

  /** `actions?.length`: None when there is no actions array. */
  function ActionCount(a: Att): Option<nat> {
    match a.actions
    case None => None
    case Some(list) => Some(|list|)
  }

  /** Memo equality is an equivalence that ignores the other fields. */
  lemma SameAttachmentRenderProperties(a: Att, b: Att, c: Att)
    ensures SameAttachmentRender(a, a)
    ensures SameAttachmentRender(a, b) ==> SameAttachmentRender(b, a)
    ensures SameAttachmentRender(a, b) && SameAttachmentRender(b, c) ==> SameAttachmentRender(a, c)
    ensures SameAttachmentRender(a, a.(id := b.id, kind := b.kind, titleLink := b.titleLink,
                                       ogScrapeUrl := b.ogScrapeUrl, assetUrl := b.assetUrl))
  {
  }

  /** The memo is sound for the renderer choice only when the fields it does
      not compare are also unchanged. */
  lemma SameRenderSameSlots(a: Att, b: Att)
    requires SameAttachmentRender(a, b)
    requires a.kind == b.kind && a.titleLink == b.titleLink
    requires a.ogScrapeUrl == b.ogScrapeUrl && a.assetUrl == b.assetUrl
    ensures Classify(a) == Classify(b)
  {
  }

  /** A change of type alone is not seen by the memo, although it can change
      the renderer. */
  lemma TypeChangeUnseen()
    ensures var a := Att(None, Some("file"), None, None, None, None, None, None);
      var b := a.(kind := Some("giphy"));
      SameAttachmentRender(a, b) && Classify(a) != Classify(b)
  {
  }

  // ---------------------------------------------------------------------
  // Renderer resolution
  // ---------------------------------------------------------------------

  /** A renderer component, by name. */
  datatype Component = Component(name: string)

  /** Optional renderer overrides, as given by props or by the messages context. */
  datatype Overrides = Overrides(
    attachmentActions: Option<Component>,
    card: Option<Component>,
    fileAttachment: Option<Component>,
    gallery: Option<Component>,
    giphy: Option<Component>,
    urlPreview: Option<Component>)

  const DefaultActions := Component("AttachmentActions")
  const DefaultCard := Component("Card")
  const DefaultFile := Component("FileAttachment")
  const DefaultGallery := Component("Gallery")
  const DefaultGiphy := Component("Giphy")

  /** `prop || context || default`. */
  function Pick(prop: Option<Component>, context: Option<Component>, default: Component): (c: Component)
    ensures prop.Some? ==> c == prop.value
    ensures prop.None? && context.Some? ==> c == context.value
    ensures prop.None? && context.None? ==> c == default
  {
    if prop.Some? then prop.value else if context.Some? then context.value else default
  }

  /** The override a set of overrides holds for a slot, if any. */
  function OverrideFor(o: Overrides, slot: Slot): Option<Component> {
    match slot
    case ActionsSlot => o.attachmentActions
    case CardSlot => o.card
    case FileSlot => o.fileAttachment
    case GallerySlot => o.gallery
    case GiphySlot => o.giphy
    case UrlPreviewSlot => o.urlPreview
  }

  /** The component that fills a slot: the slot's prop override, else the
      context's, else the slot's default, where the link preview defaults to
      the card and every other slot to its own component. */
  function Resolve(slot: Slot, props: Overrides, context: Overrides): (c: Component)
    ensures OverrideFor(props, slot).Some? ==> c == OverrideFor(props, slot).value
    ensures OverrideFor(props, slot).None? && OverrideFor(context, slot).Some? ==>
      c == OverrideFor(context, slot).value
    ensures OverrideFor(props, slot).None? && OverrideFor(context, slot).None? ==>
      c in {DefaultActions, DefaultCard, DefaultFile, DefaultGallery, DefaultGiphy}
    ensures OverrideFor(props, slot).None? && OverrideFor(context, slot).None? ==>
      (c == DefaultCard <==> slot in {CardSlot, UrlPreviewSlot})
    ensures OverrideFor(props, slot).None? && OverrideFor(context, slot).None? ==>
      && (slot == ActionsSlot ==> c == DefaultActions)
      && (slot == FileSlot ==> c == DefaultFile)
      && (slot == GallerySlot ==> c == DefaultGallery)
      && (slot == GiphySlot ==> c == DefaultGiphy)
  {
    match slot
    case ActionsSlot => Pick(props.attachmentActions, context.attachmentActions, DefaultActions)
    case CardSlot => Pick(props.card, context.card, DefaultCard)
    case FileSlot => Pick(props.fileAttachment, context.fileAttachment, DefaultFile)
    case GallerySlot => Pick(props.gallery, context.gallery, DefaultGallery)
    case GiphySlot => Pick(props.giphy, context.giphy, DefaultGiphy)
    case UrlPreviewSlot => Pick(props.urlPreview, context.urlPreview, DefaultCard)
  }

  /** `Attachment`: nothing for a missing attachment, otherwise one component
      per slot the classification chose. */
  function Render(a: Option<Att>, props: Overrides, context: Overrides): (r: seq<Component>)
    ensures a.None? ==> r == []
    ensures a.Some? ==> |r| == |Classify(a.value)|
    ensures a.Some? ==> forall i :: 0 <= i < |r| ==> r[i] == Resolve(Classify(a.value)[i], props, context)
  {
    match a
    case None => []
    case Some(att) =>
      var slots := Classify(att);
      seq(|slots|, i requires 0 <= i < |slots| => Resolve(slots[i], props, context))
  }

  /** Every slot an override fills in the props is drawn by that override,
      whatever the context holds. */
  lemma PropOverridesWin(a: Att, props: Overrides, context: Overrides, c: Component)
    requires props == Overrides(Some(c), Some(c), Some(c), Some(c), Some(c), Some(c))
    ensures forall x :: x in Render(Some(a), props, context) ==> x == c
  {
  }

  /** With no prop overrides, each slot falls back to the context's
      component when the context has one for every slot. */
  lemma ContextUsedWithoutProps(a: Att, context: Overrides, c: Component)
    requires context == Overrides(Some(c), Some(c), Some(c), Some(c), Some(c), Some(c))
    ensures var none := Overrides(None, None, None, None, None, None);
      forall x :: x in Render(Some(a), none, context) ==> x == c
  {
  }

  /** With no overrides anywhere, a link preview is drawn by the default card. */
  lemma UrlPreviewDefaultsToCard(a: Att)
    requires IsUrlPreview(a) && !IsGiphy(a)
    ensures var none := Overrides(None, None, None, None, None, None);
      Render(Some(a), none, none) == [DefaultCard]
  {
  }
}

=== FILE: autocomplete.dfy ===
/** The text logic of the message input's autocomplete: command detection,
    extraction of the active mention token before the caret, the splice
    that replaces that token with a chosen suggestion, and the check that
    drops provider responses for another query.

    The component runs the keystroke logic after a 100 ms timer and awaits
    the data provider; here one keystroke is one synchronous `Step`, and
    everything the component asks of its surroundings (open or close the
    suggestion panel, query a provider, change the text, call the trigger's
    selection callback) is returned as a list of `Effect`s, in order. */
module AutoComplete {
  import opened Js

  /** A suggestion item: the user variant or any other (command) variant. */
  datatype Suggestion = User(id: string, name: string) | Command(name: string)

  /** Requests the component makes of its surroundings. */
  datatype Effect =
    | OpenSuggestions(trigger: char)
    | CloseSuggestions
    | Query(trigger: char, query: string)
    | Change(text: string)
    | SelectCallback(item: Suggestion)

  /** The two refs the component keeps between events: whether a trigger is
      being tracked, and the stored selection end `selectionEnd.current`,
      called the caret here. It is the position the component last recorded,
      not the input's own cursor, which a selection does not move. It is an
      integer: after a selection it can hold -1, which `slice` then reads as
      counting from the end. */
  datatype Tracker = Tracker(tracking: bool, caret: int)

  datatype StepResult = StepResult(tracker: Tracker, effects: seq<Effect>)

  function LastEffect(r: StepResult): Option<Effect> {
    if |r.effects| == 0 then None else Some(r.effects[|r.effects| - 1])
  }

  /** The step starts tracking: its first effect opens the panel for `trigger`. */
  predicate Opens(r: StepResult, trigger: char) {
    |r.effects| > 0 && r.effects[0] == OpenSuggestions(trigger)
  }

  const CommandTrigger: char := '/'
  const MentionTrigger: char := '@'

  /** The mention trigger is `@`; every other trigger key is handled like a command. */
  predicate IsMentionTrigger(trigger: char) {
    trigger == MentionTrigger
  }

  // ---------------------------------------------------------------------
  // Commands
  // ---------------------------------------------------------------------

  /** `isCommand`: first character `/` and `split(' ')` yields one piece. */
  predicate IsCommand(text: string) {
    |text| > 0 && text[0] == '/' && !(|Split(text, ' ')| > 1)
  }

  /** A command is text that starts with `/` and holds no space character;
      other whitespace does not disqualify it. */
  lemma IsCommandIff(text: string)
    ensures IsCommand(text) <==> |text| > 0 && text[0] == '/' && ' ' !in text
  {
    SplitManyIff(text, ' ');
  }

  /** The command query: the trimmed text without its leading `/`. */
  function CommandQuery(text: string): (q: string)
    ensures |text| > 0 && text[0] == '/' ==> ['/'] + q == TrimEnd(text)
  {
    var s := Trim(text);
    if |text| > 0 && text[0] == '/' then
      TrimOfNonBlankHead(text);
      assert s == [s[0]] + s[1..];
      Slice(s, 1, |s|)
    else Slice(s, 1, |s|)
  }

  /** `handleCommand`: declines (None) when the text is not a command;
      otherwise starts tracking `/` if needed and queries the `/` provider. */
  function HandleCommand(t: Tracker, text: string): (r: Option<StepResult>)
    ensures r.Some? <==> IsCommand(text)
    ensures r.Some? ==> r.value.tracker == Tracker(true, t.caret)
    ensures r.Some? ==> LastEffect(r.value) == Some(Query(CommandTrigger, CommandQuery(text)))
    ensures r.Some? ==> (Opens(r.value, CommandTrigger) <==> !t.tracking)
    ensures r.Some? ==> |r.value.effects| == (if t.tracking then 1 else 2)
  {
    if !IsCommand(text) then None
    else
      var open := if t.tracking then [] else [OpenSuggestions(CommandTrigger)];
      var effects := open + [Query(CommandTrigger, CommandQuery(text))];
      assert effects[|effects| - 1] == Query(CommandTrigger, CommandQuery(text));
      Some(StepResult(Tracker(true, t.caret), effects))
  }

  // ---------------------------------------------------------------------
  // Mentions
  // ---------------------------------------------------------------------

  predicate IsMentionChar(c: char) {
    c == ':' || c == '@'
  }

  /** `s` splits at `k` as `[^\s]*` then `\s?[^\s]*`. */
  predicate MentionTailSplit(s: string, k: nat) {
    && k <= |s|
    && NoWhitespace(s[..k])
    && (k == |s| || (IsWhitespace(s[k]) && NoWhitespace(s[k + 1..])))
  }

  /** `s` is in the language of the regular expression `[^\s]*\s?[^\s]*`. */
  ghost predicate MatchesMentionTail(s: string) {
    exists k: nat :: MentionTailSplit(s, k)
  }

  function FirstWhitespace(s: string): (k: nat)
    requires !NoWhitespace(s)
    ensures k < |s| && IsWhitespace(s[k]) && NoWhitespace(s[..k])
    decreases |s|
  {
    if IsWhitespace(s[0]) then 0
    else
      assert !NoWhitespace(s[1..]) by {
        var i :| 0 <= i < |s| && IsWhitespace(s[i]);
        assert s[1..][i - 1] == s[i];
      }
      var k := FirstWhitespace(s[1..]);
      assert s[..k + 1] == [s[0]] + s[1..][..k];
      1 + k
  }

  /** A split of the tail pattern leaves at most one whitespace character. */
  lemma MentionTailSound(s: string, k: nat)
    requires MentionTailSplit(s, k)
    ensures WhitespaceCount(s) <= 1
  {
    assert s == s[..k] + s[k..];
    WhitespaceCountAppend(s[..k], s[k..]);
    WhitespaceCountZero(s[..k]);
    if k < |s| {
      assert s[k..] == [s[k]] + s[k + 1..];
      WhitespaceCountAppend([s[k]], s[k + 1..]);
      WhitespaceCountZero(s[k + 1..]);
    }
  }

  /** A string with exactly one whitespace character splits at it. */
  lemma MentionTailComplete(s: string)
    requires !NoWhitespace(s) && WhitespaceCount(s) <= 1
    ensures MentionTailSplit(s, FirstWhitespace(s))
  {
    var k := FirstWhitespace(s);
    var rest := s[k + 1..];
    assert s == s[..k] + ([s[k]] + rest);
    WhitespaceCountAppend(s[..k], [s[k]] + rest);
    WhitespaceCountAppend([s[k]], rest);
    WhitespaceCountZero(s[..k]);
    assert WhitespaceCount([s[k]]) == 1 by {
      assert [s[k]][1..] == [];
    }
    assert WhitespaceCount(rest) == 0;
    WhitespaceCountZero(rest);
  }

  /** The tail of the mention regular expression accepts exactly the strings
      with at most one whitespace character. */
  lemma MentionTailIff(s: string)
    ensures MatchesMentionTail(s) <==> WhitespaceCount(s) <= 1
  {
    if MatchesMentionTail(s) {
      var k: nat :| MentionTailSplit(s, k);
      MentionTailSound(s, k);
    }
    if WhitespaceCount(s) <= 1 {
      if NoWhitespace(s) {
        assert s[..|s|] == s;
        assert MentionTailSplit(s, |s|);
      } else {
        MentionTailComplete(s);
      }
    }
  }

  /** Position `i` of `p` starts a match of `[:@][^\s]*\s?[^\s]*$`. */
  predicate MentionAt(p: string, i: int) {
    0 <= i < |p| && IsMentionChar(p[i]) && WhitespaceCount(p[i + 1..]) <= 1
  }

  /** `k` is the first position at which the mention pattern matches. */
  predicate IsLeftmostMention(p: string, k: int) {
    MentionAt(p, k) && forall j :: 0 <= j < k ==> !MentionAt(p, j)
  }

  /** The leftmost match position at or after `from`: the regex engine tries
      start positions left to right. */
  function FindMention(p: string, from: nat): (r: Option<nat>)
    requires from <= |p|
    ensures r.Some? ==> from <= r.value && MentionAt(p, r.value)
    ensures r.Some? ==> forall j :: from <= j < r.value ==> !MentionAt(p, j)
    ensures r.None? ==> forall j :: from <= j < |p| ==> !MentionAt(p, j)
    decreases |p| - from
  {
    if from == |p| then None
    else if MentionAt(p, from) then Some(from)
    else FindMention(p, from + 1)
  }

  /** Start of the active mention token in the text before the caret. The
      match is anchored at the end, so the global match yields at most one
      token and its last element is that token. */
  function MentionStart(p: string): Option<nat> {
    FindMention(p, 0)
  }

  /** The leftmost match position is the one `MentionStart` finds. */
  lemma LeftmostMention(p: string)
    ensures forall k :: IsLeftmostMention(p, k) ==> MentionStart(p) == Some(k)
  {
  }

  /** The trimmed token keeps its trigger character in front of the query. */
  lemma MentionToken(p: string, k: nat)
    requires k < |p| && IsMentionChar(p[k])
    ensures |Trim(p[k..])| > 0 && Trim(p[k..]) == [p[k]] + TrimEnd(p[k + 1..])
  {
    TrimOfNonBlankHead(p[k..]);
    assert p[k..] == [p[k]] + p[k + 1..];
    TrimEndCons(p[k], p[k + 1..]);
  }

  lemma {:induction false} TrimEndCons(c: char, s: string)
    requires !IsWhitespace(c)
    ensures TrimEnd([c] + s) == [c] + TrimEnd(s)
    decreases |s|
  {
    if |s| > 0 && IsWhitespace(s[|s| - 1]) {
      assert ([c] + s)[..|s|] == [c] + s[..|s| - 1];
      TrimEndCons(c, s[..|s| - 1]);
    } else if |s| > 0 {
      assert ([c] + s)[|s|] == s[|s| - 1];
    }
  }

  /** `handleMentions`: the token is the suffix of the text before the caret
      that starts at the leftmost `:` or `@` followed by at most one
      whitespace character. No token stops tracking and closes the panel;
      the other cases are stated by `MentionForeignTrigger` and
      `MentionQuery`. */
  function HandleMentions(t: Tracker, text: string, triggers: set<char>): (r: StepResult)
    ensures r.tracker.caret == t.caret
    ensures var p := Slice(text, 0, t.caret);
      (forall j :: 0 <= j < |p| ==> !MentionAt(p, j)) <==>
        r == StepResult(Tracker(false, t.caret), [CloseSuggestions])
  {
    var p := Slice(text, 0, t.caret);
    match MentionStart(p)
    case None => StepResult(Tracker(false, t.caret), [CloseSuggestions])
    case Some(k) =>
      MentionToken(p, k);
      var last := Trim(p[k..]);
      if last[0] !in triggers then StepResult(t, [])
      else
        var open := if t.tracking then [] else [OpenSuggestions(MentionTrigger)];
        StepResult(Tracker(true, t.caret), open + [Query(MentionTrigger, last[1..])])
  }

  /** A token whose first character is not a configured trigger changes
      nothing: no effect, and the tracker is kept. */
  lemma MentionForeignTrigger(t: Tracker, text: string, triggers: set<char>, k: nat)
    requires IsLeftmostMention(Slice(text, 0, t.caret), k)
    requires Slice(text, 0, t.caret)[k] !in triggers
    ensures HandleMentions(t, text, triggers) == StepResult(t, [])
  {
    var p := Slice(text, 0, t.caret);
    LeftmostMention(p);
    MentionToken(p, k);
  }

  /** A token starting with a configured trigger starts tracking (opening the
      panel only when it was closed) and sends the token without its first
      character and its trailing whitespace to the `@` provider. */
  lemma MentionQuery(t: Tracker, text: string, triggers: set<char>, k: nat)
    requires IsLeftmostMention(Slice(text, 0, t.caret), k)
    requires Slice(text, 0, t.caret)[k] in triggers
    ensures var r := HandleMentions(t, text, triggers);
      var p := Slice(text, 0, t.caret);
      && r.tracker == Tracker(true, t.caret)
      && LastEffect(r) == Some(Query(MentionTrigger, TrimEnd(p[k + 1..])))
      && (Opens(r, MentionTrigger) <==> !t.tracking)
      && |r.effects| == (if t.tracking then 1 else 2)
  {
    var p := Slice(text, 0, t.caret);
    LeftmostMention(p);
    MentionToken(p, k);
  }

  // ---------------------------------------------------------------------
  // One keystroke
  // ---------------------------------------------------------------------

  /** `text.slice(caret - 1, caret) === ' '`. */
  predicate SpaceBeforeCaret(text: string, caret: int) {
    Slice(text, caret - 1, caret) == " "
  }

  /** The character before the caret is a space; a negative caret counts
      from the end of the text, as `slice` reads it. */
  lemma SpaceBeforeCaretIff(text: string, caret: int)
    ensures var c := if caret < 0 then |text| + caret else caret;
      SpaceBeforeCaret(text, caret) <==> 1 <= c <= |text| && text[c - 1] == ' '
  {
    var c := if caret < 0 then |text| + caret else caret;
    if 1 <= c <= |text| {
      assert Slice(text, caret - 1, caret) == [text[c - 1]];
    }
  }

  /** `handleSuggestions`: a space just before the caret while nothing is
      tracked closes the panel; otherwise command handling is tried first and
      mention handling runs only when it declines. The caret is not moved. */
  function Step(t: Tracker, text: string, triggers: set<char>): (r: StepResult)
    ensures r.tracker.caret == t.caret
    ensures SpaceBeforeCaret(text, t.caret) && !t.tracking ==>
      r == StepResult(Tracker(false, t.caret), [CloseSuggestions])
    ensures !(SpaceBeforeCaret(text, t.caret) && !t.tracking) && IsCommand(text) ==>
      r.tracker.tracking && LastEffect(r) == Some(Query(CommandTrigger, CommandQuery(text)))
    ensures !(SpaceBeforeCaret(text, t.caret) && !t.tracking) && IsCommand(text) ==>
      (Opens(r, CommandTrigger) <==> !t.tracking)
    ensures !(SpaceBeforeCaret(text, t.caret) && !t.tracking) && IsCommand(text) ==>
      HandleCommand(t, text).Some? && r == HandleCommand(t, text).value
    ensures !(SpaceBeforeCaret(text, t.caret) && !t.tracking) && !IsCommand(text) ==>
      r == HandleMentions(t, text, triggers)
  {
    if SpaceBeforeCaret(text, t.caret) && !t.tracking then
      StepResult(Tracker(false, t.caret), [CloseSuggestions])
    else
      match HandleCommand(t, text)
      case Some(handled) => handled
      case None => HandleMentions(t, text, triggers)
  }

  // ---------------------------------------------------------------------
  // Provider responses
  // ---------------------------------------------------------------------

  /** A provider's answer: the query its request carried, the query it
      echoes back, and the items. */
  datatype Response = Response(issued: string, echoed: string, data: seq<Suggestion>)

  /** The callback given to the provider forwards the items only when the
      echoed query equals the query of that request. */
  predicate Accepted(resp: Response) {
    resp.issued == resp.echoed
  }

  /** The suggestion list after responses arrive in the given order. */
  function Deliver(list: seq<Suggestion>, rs: seq<Response>): (r: seq<Suggestion>)
    ensures (forall i :: 0 <= i < |rs| ==> !Accepted(rs[i])) ==> r == list
    decreases |rs|
  {
    if |rs| == 0 then list
    else
      var before := Deliver(list, rs[..|rs| - 1]);
      var last := rs[|rs| - 1];
      if last.issued != last.echoed then before else last.data
  }

  /** The list holds the items of the last accepted response. */
  lemma {:induction false} DeliverLastAccepted(list: seq<Suggestion>, rs: seq<Response>, i: nat)
    requires i < |rs| && Accepted(rs[i])
    requires forall j :: i < j < |rs| ==> !Accepted(rs[j])
    ensures Deliver(list, rs) == rs[i].data
    decreases |rs|
  {
    if i < |rs| - 1 {
      var init := rs[..|rs| - 1];
      assert init[i] == rs[i];
      assert forall j :: i < j < |init| ==> init[j] == rs[j];
      DeliverLastAccepted(list, init, i);
    }
  }

  /** A response echoing a different query never reaches the list. */
  lemma MismatchedResponseDropped(list: seq<Suggestion>, rs: seq<Response>, resp: Response)
    requires !Accepted(resp)
    ensures Deliver(list, rs + [resp]) == Deliver(list, rs)
  {
    assert (rs + [resp])[..|rs|] == rs;
  }

  /** The check compares each request with its own echo, so a late response
      for an earlier query that echoes that query still replaces the list
      filled for a later query. */
  lemma LateResponseForEarlierQueryAccepted(older: seq<Suggestion>, newer: seq<Suggestion>)
    ensures Deliver([], [Response("ali", "ali", newer), Response("al", "al", older)]) == older
  {
  }

  // ---------------------------------------------------------------------
  // Selecting a suggestion
  // ---------------------------------------------------------------------

  /** The text inserted for a selected item: the formatted output and a space
      when the item kind matches the trigger kind, otherwise nothing. */
  function InsertedToken(trigger: char, item: Suggestion, output: Suggestion -> string): (token: string)
    ensures token == [] || token == output(item) + " "
    ensures token != [] <==> (IsMentionTrigger(trigger) <==> item.User?)
  {
    if IsMentionTrigger(trigger) then
      if item.User? then output(item) + " " else []
    else
      if !item.User? then output(item) + " " else []
  }

  /** Position `i` of `p` starts a match of `\T[^\T\s]*$` for trigger `T`. */
  predicate TokenAt(p: string, i: int, trigger: char) {
    && 0 <= i < |p|
    && p[i] == trigger
    && forall j :: i < j < |p| ==> p[j] != trigger && !IsWhitespace(p[j])
  }

  /** At most one position of a string starts such a match. */
  lemma TokenAtUnique(p: string, i: int, j: int, trigger: char)
    requires TokenAt(p, i, trigger) && TokenAt(p, j, trigger)
    ensures i == j
  {
  }

  /** Backward scan from position `n`; the characters from `n` on hold
      neither the trigger nor whitespace. */
  function ScanBack(p: string, trigger: char, n: nat): (r: int)
    requires n <= |p|
    requires forall j :: n <= j < |p| ==> p[j] != trigger && !IsWhitespace(p[j])
    ensures -1 <= r < |p|
    ensures r >= 0 ==> TokenAt(p, r, trigger)
    ensures r == -1 ==> forall i :: 0 <= i < |p| ==> !TokenAt(p, i, trigger)
    decreases n
  {
    if n == 0 then -1
    else if p[n - 1] == trigger then n - 1
    else if IsWhitespace(p[n - 1]) then -1
    else ScanBack(p, trigger, n - 1)
  }

  /** `textToModify.search(...)`: the last occurrence of the trigger when no
      whitespace follows it, else -1. */
  function SelectionStart(p: string, trigger: char): (r: int)
    ensures -1 <= r < |p|
    ensures r >= 0 ==> TokenAt(p, r, trigger)
    ensures r == -1 <==> forall i :: 0 <= i < |p| ==> !TokenAt(p, i, trigger)
  {
    ScanBack(p, trigger, |p|)
  }

  /** The matching position, when there is one, is the one found. */
  lemma SelectionStartFindsToken(p: string, trigger: char)
    ensures forall i :: TokenAt(p, i, trigger) ==> SelectionStart(p, trigger) == i
  {
    forall i | TokenAt(p, i, trigger) {
      TokenAtUnique(p, i, SelectionStart(p, trigger), trigger);
    }
  }

  /** The splice of `onSelectSuggestion`: the text before the caret has the
      part from the token start on (all of it when there is no token)
      replaced by `token`, via a `replace` of that text in the value. */
  function SpliceText(value: string, caret: int, trigger: char, token: string): (v: string)
    ensures var n := SliceIndex(caret, |value|);
      var start := SelectionStart(value[..n], trigger);
      var kept := if start < 0 then 0 else start;
      kept <= n && v == value[..kept] + token + value[n..]
  {
    var before := Slice(value, 0, caret);
    SlicePrefix(value, caret);
    var start := SelectionStart(before, trigger);
    ReplacePrefix(value, before, Substring(before, 0, start) + token);
    Replace(value, before, Substring(before, 0, start) + token)
  }

  /** `computeCaretPosition`: start of the token plus the length of the
      inserted text, where the start is -1 when no token was found. The
      result is kept by `|| 0`, which only turns 0 into 0. */
  function CaretAfterSelectAsWritten(start: int, token: string): (caret: int)
    ensures caret - |token| == start
    ensures start >= -1 ==> caret >= |token| - 1
  {
    start + |token|
  }

  /** The caret right after the inserted text: the start as the splice
      itself uses it, with -1 read as 0. */
  function CaretAfterSelect(start: int, token: string): (caret: nat)
    ensures start >= 0 ==> caret == CaretAfterSelectAsWritten(start, token)
    ensures start < 0 ==> caret == |token|
  {
    (if start < 0 then 0 else start) + |token|
  }

  datatype SelectResult = SelectResult(value: string, tracker: Tracker, effects: seq<Effect>)

  /** `onSelectSuggestion` as written: replace the token before the caret
      with the inserted text (`SelectReplacesToken`, `SelectWithoutToken`),
      record `computeCaretPosition` as the selection end, stop tracking before
      reporting the new text, and call the trigger's callback for a user
      picked on the mention trigger. */
  function Select(value: string, caret: int, trigger: char, item: Suggestion,
                  output: Suggestion -> string): (r: SelectResult)
    ensures !r.tracker.tracking
    ensures r.tracker.caret >= |InsertedToken(trigger, item, output)| - 1
    ensures var n := SliceIndex(caret, |value|);
      SelectionStart(value[..n], trigger) >= 0 ==> 0 <= r.tracker.caret <= |r.value|
    ensures |r.effects| >= 2 && r.effects[0] == CloseSuggestions && r.effects[1] == Change(r.value)
    ensures |r.effects| == 3 <==> IsMentionTrigger(trigger) && item.User?
    ensures |r.effects| == 3 ==> r.effects[2] == SelectCallback(item)
    ensures |r.effects| <= 3
  {
    var token := InsertedToken(trigger, item, output);
    var before := Slice(value, 0, caret);
    SlicePrefix(value, caret);
    var start := SelectionStart(before, trigger);
    var newValue := SpliceText(value, caret, trigger, token);
    var callback := if IsMentionTrigger(trigger) && item.User? then [SelectCallback(item)] else [];
    SelectResult(newValue, Tracker(false, CaretAfterSelectAsWritten(start, token)),
                 [CloseSuggestions, Change(newValue)] + callback)
  }

  /** `onSelectSuggestion` with the caret put right after the inserted text
      in every case; the text and the effects are those of `Select`. */
  function SelectCorrected(value: string, caret: int, trigger: char, item: Suggestion,
                           output: Suggestion -> string): (r: SelectResult)
    ensures var w := Select(value, caret, trigger, item, output);
      r.value == w.value && r.effects == w.effects && r.tracker.tracking == w.tracker.tracking
    ensures var n := SliceIndex(caret, |value|);
      var start := SelectionStart(value[..n], trigger);
      var kept := if start < 0 then 0 else start;
      var token := InsertedToken(trigger, item, output);
      && 0 <= r.tracker.caret <= |r.value|
      && r.tracker.caret == kept + |token|
  {
    var w := Select(value, caret, trigger, item, output);
    var token := InsertedToken(trigger, item, output);
    SlicePrefix(value, caret);
    var start := SelectionStart(Slice(value, 0, caret), trigger);
    w.(tracker := Tracker(false, CaretAfterSelect(start, token)))
  }

  /** With a token at `i` before the caret, the token is replaced by the
      inserted text and everything else is kept. */
  lemma SelectReplacesToken(value: string, caret: int, trigger: char, item: Suggestion,
                            output: Suggestion -> string, i: int)
    requires TokenAt(value[..SliceIndex(caret, |value|)], i, trigger)
    ensures var n := SliceIndex(caret, |value|);
      Select(value, caret, trigger, item, output).value
        == value[..i] + InsertedToken(trigger, item, output) + value[n..]
  {
    var n := SliceIndex(caret, |value|);
    SlicePrefix(value, caret);
    SelectionStartFindsToken(value[..n], trigger);
  }

  /** Without a token before the caret, the inserted text replaces all the
      text before the caret. */
  lemma SelectWithoutToken(value: string, caret: int, trigger: char, item: Suggestion,
                           output: Suggestion -> string)
    requires var n := SliceIndex(caret, |value|);
      forall i :: 0 <= i < n ==> !TokenAt(value[..n], i, trigger)
    ensures var n := SliceIndex(caret, |value|);
      Select(value, caret, trigger, item, output).value
        == InsertedToken(trigger, item, output) + value[n..]
  {
    SlicePrefix(value, caret);
  }

  /** With the corrected caret, the caret lands right after the inserted
      text, which follows the part of the value before the token unchanged. */
  lemma SelectCaretAfterToken(value: string, caret: int, trigger: char, item: Suggestion,
                              output: Suggestion -> string)
    ensures var r := SelectCorrected(value, caret, trigger, item, output);
      var n := SliceIndex(caret, |value|);
      var start := SelectionStart(value[..n], trigger);
      var kept := if start < 0 then 0 else start;
      r.value[..r.tracker.caret] == value[..kept] + InsertedToken(trigger, item, output)
  {
    SlicePrefix(value, caret);
  }

  /** With the trigger found, the caret as written is the token start plus
      the length of the inserted text, right after that text, and the
      corrected caret agrees with it. */
  lemma SelectCaretWithToken(value: string, caret: int, trigger: char, item: Suggestion,
                             output: Suggestion -> string, i: nat)
    requires TokenAt(value[..SliceIndex(caret, |value|)], i, trigger)
    ensures var r := Select(value, caret, trigger, item, output);
      var token := InsertedToken(trigger, item, output);
      && r.tracker.caret == i + |token|
      && r.value[..r.tracker.caret] == value[..i] + token
      && SelectCorrected(value, caret, trigger, item, output).tracker == r.tracker
  {
    var n := SliceIndex(caret, |value|);
    SlicePrefix(value, caret);
    TokenAtUnique(value[..n], i, SelectionStart(value[..n], trigger), trigger);
  }

  /** As written, when the trigger is not found the splice writes the
      inserted text at offset 0 but the caret is put one position short of
      its end: -1 when nothing is inserted. The corrected caret is one
      further on. */
  lemma CaretAsWrittenFallsShort(value: string, caret: int, trigger: char, item: Suggestion,
                                 output: Suggestion -> string)
    requires var n := SliceIndex(caret, |value|);
      forall i :: 0 <= i < n ==> !TokenAt(value[..n], i, trigger)
    ensures var token := InsertedToken(trigger, item, output);
      var r := Select(value, caret, trigger, item, output);
      && r.value[..|token|] == token
      && r.tracker.caret == |token| - 1
      && SelectCorrected(value, caret, trigger, item, output).tracker.caret == |token|
  {
    var n := SliceIndex(caret, |value|);
    SlicePrefix(value, caret);
    assert SelectionStart(value[..n], trigger) == -1;
    SelectWithoutToken(value, caret, trigger, item, output);
  }

  /** Concrete cases: a mention token with one inner space (`@a b`), which
      the mention scan accepts and the selection scan does not, and a
      command picked on the mention trigger with no `@` before the caret,
      which erases the text before the caret and leaves the caret at -1. */
  lemma CaretAsWrittenExample()
    ensures var out := (s: Suggestion) => "@ab";
      var r := Select("@a b", 4, '@', User("1", "ab"), out);
      && r.value == "@ab "
      && r.tracker.caret == 3
      && SelectCorrected("@a b", 4, '@', User("1", "ab"), out).tracker.caret == 4
    ensures var r := Select("x", 1, '@', Command("giphy"), (s: Suggestion) => "/giphy");
      r.value == "" && r.tracker.caret == -1
  {
    var p := "@a b";
    assert !TokenAt(p, 0, '@') by { assert IsWhitespace(p[2]); }
    assert forall i :: 0 <= i < 4 ==> !TokenAt(p, i, '@');
    assert p[..4] == p;
    assert "x"[..1] == "x";
    assert !TokenAt("x", 0, '@');
  }

  /** The stored selection end only feeds the next keystroke. After the
      completion above it is 3 rather than 4 in "@ab ", so the next
      keystroke still sees the token "@ab" before it and keeps the panel
      tracking with the query "ab"; at 4 the space before it closes the
      panel. */
  lemma StaleSelectionEndReopens()
    ensures var r := Step(Tracker(false, 3), "@ab ", {'@'});
      r.tracker.tracking && LastEffect(r) == Some(Query(MentionTrigger, "ab"))
    ensures Step(Tracker(false, 4), "@ab ", {'@'}) == StepResult(Tracker(false, 4), [CloseSuggestions])
  {
    var text := "@ab ";
    StaleMentionToken();
    assert !SpaceBeforeCaret(text, 3) by { assert Slice(text, 2, 3) == "b"; }
    assert !IsCommand(text) by { assert text[0] == '@'; }
    MentionQuery(Tracker(false, 3), text, {'@'}, 0);
    assert SpaceBeforeCaret(text, 4) by { assert Slice(text, 3, 4) == " "; }
  }

  /** "@ab" before position 3 of "@ab " is a mention token at 0 whose
      query is "ab". */
  lemma StaleMentionToken()
    ensures var p := Slice("@ab ", 0, 3);
      IsLeftmostMention(p, 0) && p[0] == '@' && TrimEnd(p[1..]) == "ab"
  {
    var p := Slice("@ab ", 0, 3);
    assert p == "@ab";
    assert p[1..] == "ab" && "ab"[1..] == "b" && "b"[1..] == "";
    assert WhitespaceCount(p[1..]) == 0;
  }
}

=== FILE: js.dfy ===
/** The few JavaScript value and string semantics the components rely on:
    optional values and their truthiness, the whitespace class shared by the
    regular-expression escape `\s` and `String.prototype.trim`, and the
    index conventions of `slice`, `substring`, `indexOf`, `replace` and
    `split` on strings. */
module Js {

  /** An optional value: a JavaScript property that may be `undefined`. */
  datatype Option<+T> = None | Some(value: T)

  /** JavaScript truthiness of an optional string: present and non-empty. */
  predicate Truthy(s: Option<string>) {
    s.Some? && |s.value| > 0
  }

  /** The characters matched by `\s` and removed by `trim`: the ECMAScript
      WhiteSpace and LineTerminator code points. */
  predicate IsWhitespace(c: char) {
    var n := c as int;
    || (0x09 <= n <= 0x0D)
    || n == 0x20
    || n == 0xA0
    || n == 0x1680
    || (0x2000 <= n <= 0x200A)
    || n == 0x2028
    || n == 0x2029
    || n == 0x202F
    || n == 0x205F
    || n == 0x3000
    || n == 0xFEFF
  }

  predicate NoWhitespace(s: string) {
    forall i :: 0 <= i < |s| ==> !IsWhitespace(s[i])
  }

  /** Number of whitespace characters in `s`. */
  function WhitespaceCount(s: string): nat {
    if |s| == 0 then 0
    else (if IsWhitespace(s[0]) then 1 else 0) + WhitespaceCount(s[1..])
  }

  lemma {:induction false} WhitespaceCountZero(s: string)
    ensures WhitespaceCount(s) == 0 <==> NoWhitespace(s)
    decreases |s|
  {
    if |s| > 0 {
      WhitespaceCountZero(s[1..]);
      assert forall i :: 1 <= i < |s| ==> s[i] == s[1..][i - 1];
    }
  }

  lemma {:induction false} WhitespaceCountAppend(a: string, b: string)
    ensures WhitespaceCount(a + b) == WhitespaceCount(a) + WhitespaceCount(b)
    decreases |a|
  {
    if |a| > 0 {
      assert (a + b)[1..] == a[1..] + b;
      WhitespaceCountAppend(a[1..], b);
    } else {
      assert a + b == b;
    }
  }

  /** `trimEnd`: drop the trailing whitespace. */
  function TrimEnd(s: string): (r: string)
    ensures r <= s
    ensures |r| == 0 || !IsWhitespace(r[|r| - 1])
    ensures forall i :: |r| <= i < |s| ==> IsWhitespace(s[i])
    decreases |s|
  {
    if |s| > 0 && IsWhitespace(s[|s| - 1]) then TrimEnd(s[..|s| - 1]) else s
  }

  /** `trimStart`: drop the leading whitespace. */
  function TrimStart(s: string): (r: string)
    ensures |r| <= |s| && r == s[|s| - |r|..]
    ensures |r| == 0 || !IsWhitespace(r[0])
    ensures forall i :: 0 <= i < |s| - |r| ==> IsWhitespace(s[i])
    decreases |s|
  {
    if |s| > 0 && IsWhitespace(s[0]) then TrimStart(s[1..]) else s
  }

  /** `trim`: both ends. */
  function Trim(s: string): string {
    TrimEnd(TrimStart(s))
  }

  /** A string that does not start with whitespace only loses its tail to `trim`. */
  lemma TrimOfNonBlankHead(s: string)
    requires |s| > 0 && !IsWhitespace(s[0])
    ensures Trim(s) == TrimEnd(s)
    ensures |Trim(s)| > 0 && Trim(s)[0] == s[0]
  {
  }

  /** How `slice` reads one bound: negative indices count from the end, and
      the result is clamped to `[0, len]`. */
  function SliceIndex(i: int, len: nat): (k: nat)
    ensures k <= len
    ensures 0 <= i <= len ==> k == i
    ensures i < 0 ==> k == (if len + i < 0 then 0 else len + i)
    ensures i > len ==> k == len
  {
    if i < 0 then (if len + i < 0 then 0 else len + i)
    else if i > len then len
    else i
  }

  /** `s.slice(from, to)`. */
  function Slice(s: string, from: int, to: int): (r: string)
    ensures |r| <= |s|
    ensures 0 <= from <= to <= |s| ==> r == s[from..to]
    ensures SliceIndex(to, |s|) <= SliceIndex(from, |s|) ==> r == []
  {
    var a := SliceIndex(from, |s|);
    var b := SliceIndex(to, |s|);
    if a < b then s[a..b] else []
  }

  /** `s.slice(0, n)` is the prefix that ends where `slice` reads the bound
      `n`: of length `min(n, |s|)` for a non-negative `n`, and stopping `-n`
      characters before the end (or empty) for a negative one. */
  lemma SlicePrefix(s: string, n: int)
    ensures Slice(s, 0, n) == s[..SliceIndex(n, |s|)]
    ensures n >= 0 ==> |Slice(s, 0, n)| == (if n < |s| then n else |s|)
  {
  }

  /** How `substring` reads one bound: clamped to `[0, len]`, negatives become 0. */
  function SubstringIndex(i: int, len: nat): (k: nat)
    ensures k <= len
    ensures 0 <= i <= len ==> k == i
    ensures i < 0 ==> k == 0
    ensures i > len ==> k == len
  {
    if i < 0 then 0 else if i > len then len else i
  }

  /** `s.substring(from, to)`: bounds are clamped and swapped when reversed. */
  function Substring(s: string, from: int, to: int): (r: string)
    ensures 0 <= from <= to <= |s| ==> r == s[from..to]
    ensures to <= 0 && from <= 0 ==> r == []
  {
    var a := SubstringIndex(from, |s|);
    var b := SubstringIndex(to, |s|);
    if a <= b then s[a..b] else s[b..a]
  }

  lemma SubstringSymmetric(s: string, from: int, to: int)
    ensures Substring(s, from, to) == Substring(s, to, from)
  {
  }

  predicate OccursAt(s: string, pat: string, i: nat) {
    i + |pat| <= |s| && s[i..i + |pat|] == pat
  }

  /** `s.indexOf(pat, from)`: the leftmost occurrence at or after `from`, or -1. */
  function IndexOfFrom(s: string, pat: string, from: nat): (r: int)
    requires from <= |s|
    ensures r == -1 || (from <= r && OccursAt(s, pat, r))
    ensures r == -1 ==> forall j :: from <= j <= |s| ==> !OccursAt(s, pat, j)
    ensures r >= 0 ==> forall j :: from <= j < r ==> !OccursAt(s, pat, j)
    decreases |s| - from
  {
    if OccursAt(s, pat, from) then from
    else if from == |s| then -1
    else IndexOfFrom(s, pat, from + 1)
  }

  function IndexOf(s: string, pat: string): int {
    IndexOfFrom(s, pat, 0)
  }

  /** `s.replace(pat, rep)` with a string pattern: the first occurrence only.
      The `$` patterns of the replacement string are not interpreted. */
  function Replace(s: string, pat: string, rep: string): (r: string)
  {
    var i := IndexOf(s, pat);
    if i < 0 then s else s[..i] + rep + s[i + |pat|..]
  }

  /** Replacing a prefix of `s` rewrites exactly that prefix. */
  lemma ReplacePrefix(s: string, pat: string, rep: string)
    requires pat <= s
    ensures Replace(s, pat, rep) == rep + s[|pat|..]
  {
    assert s[0..|pat|] == pat;
    assert IndexOfFrom(s, pat, 0) == 0;
    assert s[..0] == [];
  }

  /** Inverse of `split`: the pieces glued back with the separator. */
  function Join(pieces: seq<string>, sep: char): string
    decreases |pieces|
  {
    if |pieces| == 0 then []
    else if |pieces| == 1 then pieces[0]
    else pieces[0] + [sep] + Join(pieces[1..], sep)
  }

  /** `s.split(sep)` for a one-character separator. */
  function Split(s: string, sep: char): (pieces: seq<string>)
    ensures |pieces| >= 1
    ensures forall k :: 0 <= k < |pieces| ==> sep !in pieces[k]
    decreases |s|
  {
    if |s| == 0 then [[]]
    else if s[0] == sep then [[]] + Split(s[1..], sep)
    else
      var rest := Split(s[1..], sep);
      [[s[0]] + rest[0]] + rest[1..]
  }

  /** Joining the pieces with the separator gives back the string. */
  lemma {:induction false} SplitJoin(s: string, sep: char)
    ensures Join(Split(s, sep), sep) == s
    decreases |s|
  {
    if |s| > 0 {
      SplitJoin(s[1..], sep);
      if s[0] != sep {
        var rest := Split(s[1..], sep);
        if |rest| > 1 {
          assert Join(rest, sep) == rest[0] + [sep] + Join(rest[1..], sep);
          assert Join(Split(s, sep), sep) == [s[0]] + rest[0] + [sep] + Join(rest[1..], sep);
        }
      }
    }
  }

  /** `split` yields more than one piece exactly when the separator occurs. */
  lemma {:induction false} SplitManyIff(s: string, sep: char)
    ensures |Split(s, sep)| > 1 <==> sep in s
  {
    var pieces := Split(s, sep);
    SplitJoin(s, sep);
    if |pieces| > 1 {
      assert s == pieces[0] + [sep] + Join(pieces[1..], sep);
      assert s[|pieces[0]|] == sep;
    } else {
      assert s == pieces[0];
    }
  }
}

=== FILE: message.dfy ===
/** The decision logic of the message component: who may edit or delete a
    message, the optimistic reaction toggle and its rollback, the outcome of
    a custom action and of a delete, the displayed reaction total, the
    action flags handed to the message body, and the memo equality that
    decides whether a message re-renders.

    Calls into the chat backend are not made here: each handler returns the
    ordered list of `Effect`s it performs (local state changes, backend
    calls, commits to the message list), and the outcome of the one backend
    call it awaits is a parameter. */
module Message {
  import opened Js

  /** A reaction as this component reads it; timestamps are not modelled. */
  datatype Reaction = Reaction(messageId: Option<string>, userId: Option<string>, kind: string)

  /** The fields of a message the component reads. `ownReactions` is None
      when `own_reactions` is not an array; `reactionCounts` holds the
      entries of the `reaction_counts` object in key order. */
  datatype Msg = Msg(
    id: Option<string>,
    parentId: Option<string>,
    userId: Option<string>,
    kind: Option<string>,
    status: Option<string>,
    ownReactions: Option<seq<Reaction>>,
    reactionCounts: Option<seq<(string, int)>>,
    updatedAt: Option<string>)

  /** The logged-in user: `client.userID` and `client.user`. */
  datatype User = User(id: Option<string>, role: Option<string>)
  datatype Client = Client(userID: Option<string>, user: Option<User>)

  /** The channel, when there is one: the membership role and the config flags. */
  datatype Config = Config(reactions: bool, replies: bool)
  datatype Channel = Channel(membershipRole: Option<string>, config: Option<Config>)

  /** The result of a backend call that the handler awaits. */
  datatype Outcome<+T> = Ok(value: T) | Fail

  /** What a handler does, in order. */
  datatype Effect =
    | SetPicker(visible: bool)
    | AddLocal(reaction: Reaction)
    | RemoveLocal(reaction: Reaction)
    | SendReaction(messageId: string, kind: string)
    | DeleteReaction(messageId: string, kind: string)
    | SendAction(messageId: string, name: string, value: string)
    | DeleteMessage(messageId: string)
    | UpdateMessage(message: Msg)
    | RemoveMessage(messageId: string, parentId: Option<string>)

  // ---------------------------------------------------------------------
  // Permissions
  // ---------------------------------------------------------------------

  function ClientUserId(c: Client): Option<string> {
    match c.user
    case None => None
    case Some(u) => u.id
  }

  function ClientRole(c: Client): Option<string> {
    match c.user
    case None => None
    case Some(u) => u.role
  }

  function MembershipRole(ch: Option<Channel>): Option<string> {
    match ch
    case None => None
    case Some(channel) => channel.membershipRole
  }

  /** Strict equality of the two optional ids: two absent ids are equal, so
      a message without a user counts as the own message of a client
      without a user id. */
  function IsMyMessage(c: Client, m: Msg): (r: bool)
    ensures m.userId.Some? ==> (r <==> c.user.Some? && c.user.value.id == m.userId)
    ensures m.userId.None? ==> (r <==> c.user.None? || c.user.value.id.None?)
  {
    ClientUserId(c) == m.userId
  }

  /** An admin of the whole application or of this channel. */
  function IsAdmin(c: Client, ch: Option<Channel>): (r: bool)
    ensures r <==> || (c.user.Some? && c.user.value.role == Some("admin"))
                   || (ch.Some? && ch.value.membershipRole == Some("admin"))
  {
    ClientRole(c) == Some("admin") || MembershipRole(ch) == Some("admin")
  }

  /** The owner of the channel; without a channel, nobody. */
  function IsOwner(ch: Option<Channel>): (r: bool)
    ensures r <==> ch.Some? && ch.value.membershipRole == Some("owner")
  {
    MembershipRole(ch) == Some("owner")
  }

  /** Either of the two moderator roles of the channel. */
  function IsModerator(ch: Option<Channel>): (r: bool)
    ensures r <==> && ch.Some? && ch.value.membershipRole.Some?
                   && ch.value.membershipRole.value in {"channel_moderator", "moderator"}
  {
    MembershipRole(ch) == Some("channel_moderator") || MembershipRole(ch) == Some("moderator")
  }

  /** The membership roles that may edit and delete any message. */
  const PrivilegedMemberships: set<string> := {"admin", "owner", "moderator", "channel_moderator"}

  /** Editing is offered to the author, to a client-level admin, and to a
      channel member whose role is privileged. */
  function CanEditMessage(c: Client, ch: Option<Channel>, m: Msg): (r: bool)
    ensures r <==> || ClientUserId(c) == m.userId
                   || ClientRole(c) == Some("admin")
                   || (MembershipRole(ch).Some? && MembershipRole(ch).value in PrivilegedMemberships)
  {
    IsMyMessage(c, m) || IsModerator(ch) || IsOwner(ch) || IsAdmin(c, ch)
  }

  /** Deleting is offered exactly when editing is. */
  function CanDeleteMessage(c: Client, ch: Option<Channel>, m: Msg): (r: bool)
    ensures r <==> || ClientUserId(c) == m.userId
                   || ClientRole(c) == Some("admin")
                   || (MembershipRole(ch).Some? && MembershipRole(ch).value in PrivilegedMemberships)
  {
    CanEditMessage(c, ch, m)
  }

  /** A user who is neither author nor privileged may do neither, whatever
      else the message holds. */
  lemma NonPrivilegedCannotEditOrDelete(c: Client, ch: Option<Channel>, m: Msg)
    requires ClientUserId(c) != m.userId
    requires ClientRole(c) != Some("admin")
    requires MembershipRole(ch).None? || MembershipRole(ch).value !in PrivilegedMemberships
    ensures !CanEditMessage(c, ch, m) && !CanDeleteMessage(c, ch, m)
  {
  }

  // ---------------------------------------------------------------------
  // Reactions
  // ---------------------------------------------------------------------

  function OwnReactions(m: Msg): seq<Reaction> {
    match m.ownReactions
    case None => []
    case Some(rs) => rs
  }

  /** The entry belongs to the current user and has the requested type. */
  predicate IsOwn(userID: Option<string>, r: Reaction, kind: string) {
    r.userId == userID && r.kind == kind
  }

  /** Index of the last own reaction of the given type, or -1. */
  function LastOwnIndex(rs: seq<Reaction>, userID: Option<string>, kind: string): (i: int)
    ensures -1 <= i < |rs|
    ensures i >= 0 ==> IsOwn(userID, rs[i], kind)
    ensures forall j :: i < j < |rs| ==> !IsOwn(userID, rs[j], kind)
    decreases |rs|
  {
    if |rs| == 0 then -1
    else if IsOwn(userID, rs[|rs| - 1], kind) then |rs| - 1
    else LastOwnIndex(rs[..|rs| - 1], userID, kind)
  }

  function ExistingReaction(c: Client, m: Msg, kind: string): Option<Reaction> {
    var rs := OwnReactions(m);
    var i := LastOwnIndex(rs, c.userID, kind);
    if i < 0 then None else Some(rs[i])
  }

  /** The loop of `handleReaction` over `own_reactions`: a later match
      replaces an earlier one, and entries of other users are only
      reported (the warning is not modelled). */
  method FindExistingReaction(c: Client, m: Msg, kind: string) returns (found: Option<Reaction>)
    ensures found.Some? ==> IsOwn(c.userID, found.value, kind) && found.value in OwnReactions(m)
    ensures found.None? <==> forall j :: 0 <= j < |OwnReactions(m)| ==> !IsOwn(c.userID, OwnReactions(m)[j], kind)
    ensures found == ExistingReaction(c, m, kind)
  {
    found := None;
    if m.ownReactions.Some? {
      var rs := m.ownReactions.value;
      var k := 0;
      while k < |rs|
        invariant 0 <= k <= |rs|
        invariant found == (var i := LastOwnIndex(rs[..k], c.userID, kind); if i < 0 then None else Some(rs[i]))
      {
        assert rs[..k + 1][..k] == rs[..k];
        if c.userID == rs[k].userId && rs[k].kind == kind {
          found := Some(rs[k]);
        }
        k := k + 1;
      }
      assert rs[..k] == rs;
    }
  }

  /** The temporary reaction added before the send. */
  function TemporaryReaction(c: Client, m: Msg, kind: string): Reaction {
    Reaction(m.id, ClientUserId(c), kind)
  }

  /** The backend call the toggle awaits, if any. */
  function ReactionCall(c: Client, ch: Option<Channel>, m: Msg, kind: string): (r: seq<Effect>)
    ensures |r| <= 1
    ensures forall e :: e in r ==> e.SendReaction? || e.DeleteReaction?
    ensures ch.None? || !Truthy(m.id) ==> r == []
    ensures ch.Some? && Truthy(m.id) ==>
      && |r| == 1 && r[0].messageId == m.id.value && r[0].kind == kind
      && (r[0].DeleteReaction? <==> ExistingReaction(c, m, kind).Some?)
  {
    if ch.None? || !Truthy(m.id) then []
    else match ExistingReaction(c, m, kind)
      case Some(e) => [DeleteReaction(m.id.value, e.kind)]
      case None => [SendReaction(m.id.value, kind)]
  }

  /** The backend call was made and failed. */
  predicate ReactionCallFailed(c: Client, ch: Option<Channel>, m: Msg, kind: string, outcome: Outcome<()>) {
    ReactionCall(c, ch, m, kind) != [] && outcome.Fail?
  }

  /** `handleReaction`: close the picker, then either remove the user's
      existing reaction of that type locally and delete it, or add a
      temporary reaction locally and send it; on failure reopen the picker
      and reset the message to the one the gesture started from. */
  function HandleReaction(c: Client, ch: Option<Channel>, m: Msg, kind: string, outcome: Outcome<()>): (r: seq<Effect>)
    ensures |r| >= 1 && r[0] == SetPicker(false)
    ensures ch.Some? && ExistingReaction(c, m, kind).Some? ==>
      |r| >= 2 && r[1] == RemoveLocal(ExistingReaction(c, m, kind).value)
    ensures ch.Some? && ExistingReaction(c, m, kind).None? ==>
      |r| >= 2 && r[1] == AddLocal(TemporaryReaction(c, m, kind))
    ensures ch.Some? && Truthy(m.id) ==> |r| >= 3 && (r[2].SendReaction? || r[2].DeleteReaction?)
    ensures ch.Some? && Truthy(m.id) && r[2].DeleteReaction? ==> r[1].RemoveLocal? && r[2].kind == kind
    ensures ch.Some? && Truthy(m.id) && r[2].SendReaction? ==> r[1].AddLocal? && r[2].kind == kind
    ensures ch.None? ==> r == [SetPicker(false)]
    ensures ch.Some? && !Truthy(m.id) ==> |r| == 2
    ensures ch.Some? && Truthy(m.id) ==> |r| == (if outcome.Fail? then 5 else 3)
    ensures ReactionCallFailed(c, ch, m, kind, outcome) <==>
      (|r| >= 2 && r[|r| - 2..] == [SetPicker(true), UpdateMessage(m)])
  {
    var existing := ExistingReaction(c, m, kind);
    var local :=
      if ch.None? then []
      else if existing.Some? then [RemoveLocal(existing.value)]
      else [AddLocal(TemporaryReaction(c, m, kind))];
    var call := ReactionCall(c, ch, m, kind);
    var rollback := if call != [] && outcome.Fail? then [SetPicker(true), UpdateMessage(m)] else [];
    [SetPicker(false)] + local + call + rollback
  }

  /** The channel state's view of the message after one effect. Adding a
      reaction appends it to the own reactions; removing one drops every
      entry of the same user and type; a commit replaces the message. */
  function Apply(view: Msg, e: Effect): Msg {
    match e
    case AddLocal(r) => view.(ownReactions := Some(OwnReactions(view) + [r]))
    case RemoveLocal(r) => view.(ownReactions := Some(Without(OwnReactions(view), r)))
    case UpdateMessage(next) => next
    case _ => view
  }

  /** `rs` without the entries of the same user and type as `r`. */
  function Without(rs: seq<Reaction>, r: Reaction): (out: seq<Reaction>)
    ensures forall x :: x in out <==> x in rs && !IsOwn(r.userId, x, r.kind)
    ensures |out| <= |rs|
    decreases |rs|
  {
    if |rs| == 0 then []
    else
      var init := Without(rs[..|rs| - 1], r);
      var last := rs[|rs| - 1];
      assert rs == rs[..|rs| - 1] + [last];
      if IsOwn(r.userId, last, r.kind) then init else init + [last]
  }

  function Run(view: Msg, es: seq<Effect>): Msg
    decreases |es|
  {
    if |es| == 0 then view else Apply(Run(view, es[..|es| - 1]), es[|es| - 1])
  }

  lemma RunAppend(view: Msg, a: seq<Effect>, b: seq<Effect>)
    ensures Run(view, a + b) == Run(Run(view, a), b)
    decreases |b|
  {
    if |b| > 0 {
      assert (a + b)[..|a + b| - 1] == a + b[..|b| - 1];
      RunAppend(view, a, b[..|b| - 1]);
    } else {
      assert a + b == a;
    }
  }

  /** A failed call leaves the message exactly as the gesture found it. */
  lemma ReactionRollbackRestores(c: Client, ch: Option<Channel>, m: Msg, kind: string)
    requires ReactionCallFailed(c, ch, m, kind, Fail)
    ensures Run(m, HandleReaction(c, ch, m, kind, Fail)) == m
  {
    var r := HandleReaction(c, ch, m, kind, Fail);
    assert r[..|r| - 1][|r| - 2] == SetPicker(true);
  }

  /** Without an existing reaction and with the call succeeding (or not
      made), the temporary reaction is appended and nothing else changes. */
  lemma ReactionAddCommits(c: Client, ch: Option<Channel>, m: Msg, kind: string)
    requires ch.Some? && ExistingReaction(c, m, kind).None?
    ensures var after := Run(m, HandleReaction(c, ch, m, kind, Ok(())));
      after == m.(ownReactions := Some(OwnReactions(m) + [TemporaryReaction(c, m, kind)]))
  {
    var call := ReactionCall(c, ch, m, kind);
    var change := AddLocal(TemporaryReaction(c, m, kind));
    assert HandleReaction(c, ch, m, kind, Ok(())) == [SetPicker(false)] + [change] + call + [];
    assert [SetPicker(false)] + [change] + call + [] == [SetPicker(false)] + [change] + call;
    RunThree(m, SetPicker(false), change, call);
  }

  /** With an existing reaction and the call succeeding (or not made), every
      own entry of that type is dropped and nothing else changes. */
  lemma ReactionRemoveCommits(c: Client, ch: Option<Channel>, m: Msg, kind: string)
    requires ch.Some? && ExistingReaction(c, m, kind).Some?
    ensures var after := Run(m, HandleReaction(c, ch, m, kind, Ok(())));
      var e := ExistingReaction(c, m, kind).value;
      && after == m.(ownReactions := Some(Without(OwnReactions(m), e)))
      && forall x :: x in OwnReactions(after) ==> !IsOwn(c.userID, x, kind)
  {
    var call := ReactionCall(c, ch, m, kind);
    var change := RemoveLocal(ExistingReaction(c, m, kind).value);
    assert HandleReaction(c, ch, m, kind, Ok(())) == [SetPicker(false)] + [change] + call + [];
    assert [SetPicker(false)] + [change] + call + [] == [SetPicker(false)] + [change] + call;
    RunThree(m, SetPicker(false), change, call);
  }

  /** Running a neutral effect, a state change, then backend calls only. */
  lemma RunThree(m: Msg, first: Effect, change: Effect, calls: seq<Effect>)
    requires first.SetPicker?
    requires forall e :: e in calls ==> e.SendReaction? || e.DeleteReaction?
    ensures Run(m, [first] + [change] + calls) == Apply(m, change)
  {
    RunAppend(m, [first] + [change], calls);
    var two := [first] + [change];
    assert two[..1] == [first];
    assert [first][..0] == [];
    assert Run(m, [first]) == m;
    assert Run(m, two) == Apply(m, change);
    RunNeutral(Apply(m, change), calls);
  }

  lemma {:induction false} RunNeutral(v: Msg, calls: seq<Effect>)
    requires forall e :: e in calls ==> e.SendReaction? || e.DeleteReaction?
    ensures Run(v, calls) == v
    decreases |calls|
  {
    if |calls| > 0 {
      assert calls[|calls| - 1] in calls;
      assert forall e :: e in calls[..|calls| - 1] ==> e in calls;
      RunNeutral(v, calls[..|calls| - 1]);
    }
  }

  lemma {:induction false} WithoutAbsent(rs: seq<Reaction>, r: Reaction)
    requires forall j :: 0 <= j < |rs| ==> !IsOwn(r.userId, rs[j], r.kind)
    ensures Without(rs, r) == rs
    decreases |rs|
  {
    if |rs| > 0 {
      WithoutAbsent(rs[..|rs| - 1], r);
      assert rs == rs[..|rs| - 1] + [rs[|rs| - 1]];
    }
  }

  /** Toggling the same type twice, both calls succeeding, gives back the
      own reactions the message started with, when the client's two user
      ids agree. */
  lemma ToggleTwiceRestores(c: Client, ch: Option<Channel>, m: Msg, kind: string)
    requires ch.Some? && c.userID == ClientUserId(c)
    requires ExistingReaction(c, m, kind).None?
    ensures var once := Run(m, HandleReaction(c, ch, m, kind, Ok(())));
      var twice := Run(once, HandleReaction(c, ch, once, kind, Ok(())));
      OwnReactions(twice) == OwnReactions(m)
  {
    var tmp := TemporaryReaction(c, m, kind);
    ReactionAddCommits(c, ch, m, kind);
    var once := Run(m, HandleReaction(c, ch, m, kind, Ok(())));
    var rs := OwnReactions(m);
    assert OwnReactions(once) == rs + [tmp];
    assert LastOwnIndex(OwnReactions(once), c.userID, kind) == |rs|;
    assert ExistingReaction(c, once, kind) == Some(tmp);
    ReactionRemoveCommits(c, ch, once, kind);
    assert (rs + [tmp])[..|rs|] == rs;
    WithoutAbsent(rs, tmp);
  }

  // ---------------------------------------------------------------------
  // Custom actions and delete
  // ---------------------------------------------------------------------

  /** `handleAction`: with a message id, send the action; a returned message
      is committed, and no returned message (including no channel to ask)
      removes the message from the list. A failed call commits nothing. */
  function HandleAction(ch: Option<Channel>, m: Msg, name: string, value: string,
                        outcome: Outcome<Option<Msg>>): (r: seq<Effect>)
    ensures !Truthy(m.id) ==> r == []
    ensures Truthy(m.id) && ch.Some? ==> |r| >= 1 && r[0] == SendAction(m.id.value, name, value)
    ensures Truthy(m.id) && ch.Some? && outcome.Ok? && outcome.value.Some? ==>
      r[|r| - 1] == UpdateMessage(outcome.value.value)
    ensures Truthy(m.id) && (ch.None? || (outcome.Ok? && outcome.value.None?)) ==>
      |r| >= 1 && r[|r| - 1] == RemoveMessage(m.id.value, m.parentId)
    ensures ch.Some? && outcome.Fail? ==> forall e :: e in r ==> !e.UpdateMessage? && !e.RemoveMessage?
    ensures ch.None? ==> forall e :: e in r ==> !e.SendAction?
    ensures ch.Some? && outcome.Ok? && outcome.value.Some? ==> forall e :: e in r ==> !e.RemoveMessage?
    ensures forall e :: e in r ==> !e.SendReaction? && !e.DeleteReaction? && !e.DeleteMessage?
    ensures Truthy(m.id) && ch.Some? ==> |r| == (if outcome.Fail? then 1 else 2)
    ensures Truthy(m.id) && ch.None? ==> r == [RemoveMessage(m.id.value, m.parentId)]
  {
    if !Truthy(m.id) then []
    else if ch.None? then [RemoveMessage(m.id.value, m.parentId)]
    else
      var sent := [SendAction(m.id.value, name, value)];
      match outcome
      case Fail => sent
      case Ok(Some(next)) => sent + [UpdateMessage(next)]
      case Ok(None) => sent + [RemoveMessage(m.id.value, m.parentId)]
  }

  /** Exactly one of commit and removal follows an answered action: a
      returned message becomes the message, and otherwise the message is
      removed once and nothing is committed. A failed call does neither. */
  lemma HandleActionOutcome(ch: Option<Channel>, m: Msg, name: string, value: string,
                            outcome: Outcome<Option<Msg>>)
    requires Truthy(m.id)
    ensures var r := HandleAction(ch, m, name, value, outcome);
      ch.Some? && outcome.Ok? && outcome.value.Some? ==> Run(m, r) == outcome.value.value
    ensures var r := HandleAction(ch, m, name, value, outcome);
      ch.None? || (outcome.Ok? && outcome.value.None?) ==>
        && Run(m, r) == m
        && (forall e :: e in r ==> !e.UpdateMessage?)
        && (forall i :: 0 <= i < |r| && r[i].RemoveMessage? ==> i == |r| - 1)
    ensures var r := HandleAction(ch, m, name, value, outcome);
      ch.Some? && outcome.Fail? ==> Run(m, r) == m
  {
    var r := HandleAction(ch, m, name, value, outcome);
    assert r[..0] == [];
    assert Run(m, r[..0]) == m;
    if |r| == 2 {
      assert r[..1] == [r[0]];
      assert Run(m, r[..1]) == m;
    }
  }

  /** `handleDelete`: a soft delete. The returned message is committed in
      place of the old one and the message is never removed from the list. */
  function HandleDelete(m: Msg, outcome: Outcome<Msg>): (r: seq<Effect>)
    ensures forall e :: e in r ==> !e.RemoveMessage?
    ensures Truthy(m.id) && outcome.Ok? ==> Run(m, r) == outcome.value
    ensures !Truthy(m.id) || outcome.Fail? ==> Run(m, r) == m
    ensures Truthy(m.id) ==> |r| >= 1 && r[0] == DeleteMessage(m.id.value)
    ensures !Truthy(m.id) ==> r == []
    ensures Truthy(m.id) ==> |r| == (if outcome.Fail? then 1 else 2)
  {
    if !Truthy(m.id) then []
    else
      match outcome
      case Fail => [DeleteMessage(m.id.value)]
      case Ok(next) => [DeleteMessage(m.id.value), UpdateMessage(next)]
  }

  // ---------------------------------------------------------------------
  // Reaction total
  // ---------------------------------------------------------------------

  /** An entry of the supported-reaction list. */
  datatype Emoji = Emoji(icon: string, id: string)

  predicate Supports(list: seq<Emoji>, key: string) {
    exists e :: e in list && e.id == key
  }

  /** Reference sum: the counts whose key is supported. */
  function SupportedSum(counts: seq<(string, int)>, list: seq<Emoji>): int
    decreases |counts|
  {
    if |counts| == 0 then 0
    else
      var last := counts[|counts| - 1];
      SupportedSum(counts[..|counts| - 1], list) + (if Supports(list, last.0) then last.1 else 0)
  }

  /** `getTotalReactionCount`: a missing list argument falls back to the
      emoji data; absent counts give 0. */
  method TotalReactionCount(m: Msg, supported: Option<seq<Emoji>>, emojiData: seq<Emoji>)
    returns (count: int)
    ensures m.reactionCounts.None? ==> count == 0
    ensures m.reactionCounts.Some? ==>
      count == SupportedSum(m.reactionCounts.value, if supported.Some? then supported.value else emojiData)
  {
    count := 0;
    var list := if supported.None? then emojiData else supported.value;
    if m.reactionCounts.Some? && |m.reactionCounts.value| > 0 {
      var counts := m.reactionCounts.value;
      var k := 0;
      while k < |counts|
        invariant 0 <= k <= |counts|
        invariant count == SupportedSum(counts[..k], list)
      {
        assert counts[..k + 1][..k] == counts[..k];
        if exists e :: e in list && e.id == counts[k].0 {
          count := count + counts[k].1;
        }
        k := k + 1;
      }
      assert counts[..k] == counts;
    }
  }

  /** Entries whose key is not supported do not change the total. */
  lemma {:induction false} UnsupportedIgnored(counts: seq<(string, int)>, list: seq<Emoji>)
    ensures SupportedSum(counts, list) == SupportedSum(Supported(counts, list), list)
    decreases |counts|
  {
    if |counts| > 0 {
      var init := counts[..|counts| - 1];
      var last := counts[|counts| - 1];
      UnsupportedIgnored(init, list);
      if Supports(list, last.0) {
        var s := Supported(init, list) + [last];
        assert s[..|s| - 1] == Supported(init, list);
      } else {
        assert Supported(init, list) + [] == Supported(init, list);
      }
    }
  }

  function Supported(counts: seq<(string, int)>, list: seq<Emoji>): (out: seq<(string, int)>)
    ensures forall x :: x in out <==> x in counts && Supports(list, x.0)
    decreases |counts|
  {
    if |counts| == 0 then []
    else
      var last := counts[|counts| - 1];
      assert counts == counts[..|counts| - 1] + [last];
      Supported(counts[..|counts| - 1], list) + (if Supports(list, last.0) then [last] else [])
  }

  /** The sum of all counts, supported or not. */
  function TotalSum(counts: seq<(string, int)>): int
    decreases |counts|
  {
    if |counts| == 0 then 0 else TotalSum(counts[..|counts| - 1]) + counts[|counts| - 1].1
  }

  /** With non-negative counts the displayed total lies between 0 and the
      sum of all counts, and reaches it when every key is supported. */
  lemma {:induction false} SupportedSumBounded(counts: seq<(string, int)>, list: seq<Emoji>)
    requires forall j :: 0 <= j < |counts| ==> counts[j].1 >= 0
    ensures 0 <= SupportedSum(counts, list) <= TotalSum(counts)
    ensures (forall j :: 0 <= j < |counts| ==> Supports(list, counts[j].0)) ==>
      SupportedSum(counts, list) == TotalSum(counts)
    decreases |counts|
  {
    if |counts| > 0 {
      var init := counts[..|counts| - 1];
      assert forall j :: 0 <= j < |init| ==> init[j] == counts[j];
      SupportedSumBounded(init, list);
    }
  }

  // ---------------------------------------------------------------------
  // Flags and memo equality
  // ---------------------------------------------------------------------

  /** Actions are offered only on a regular message the backend has received. */
  function ActionsEnabled(m: Msg): (r: bool)
    ensures r ==> m.kind == Some("regular")
    ensures r ==> m.status == Some("received")
  {
    m.kind == Some("regular") && m.status == Some("received")
  }

  /** The flag depends on the type and the status alone: a received regular
      message gets actions whoever wrote it and whatever it holds, and no
      other message does. */
  lemma ActionsEnabledOnlyTypeAndStatus(m: Msg, other: Msg)
    ensures m.kind == Some("regular") && m.status == Some("received") ==> ActionsEnabled(m)
    ensures ActionsEnabled(m) == ActionsEnabled(other.(kind := m.kind, status := m.status))
  {
  }

  /** The memo compares `updated_at` only, so a message whose status turns
      to received without a new `updated_at` keeps its old, disabled flag
      on screen. */
  lemma ActionsEnabledChangeUnseen(m: Msg)
    requires m.kind == Some("regular") && m.status == Some("sending")
    ensures var next := m.(status := Some("received"));
      SameMessageRender(m, next) && !ActionsEnabled(m) && ActionsEnabled(next)
  {
  }

  datatype ActionProps = ActionProps(reactionsEnabled: bool, repliesEnabled: bool)

  function ConfigReactions(ch: Option<Channel>): bool {
    ch.Some? && ch.value.config.Some? && ch.value.config.value.reactions
  }

  function ConfigReplies(ch: Option<Channel>): bool {
    ch.Some? && ch.value.config.Some? && ch.value.config.value.replies
  }

  /** The action props as written: both flags read the `reactions` config flag. */
  function ActionPropsAsWritten(ch: Option<Channel>): (p: ActionProps)
    ensures p.reactionsEnabled == p.repliesEnabled
    ensures p.reactionsEnabled <==> ch.Some? && ch.value.config.Some? && ch.value.config.value.reactions
  {
    ActionProps(ConfigReactions(ch), ConfigReactions(ch))
  }

  /** The action props with replies read from the `replies` config flag. */
  function ActionPropsFor(ch: Option<Channel>): (p: ActionProps)
    ensures p.reactionsEnabled <==> ch.Some? && ch.value.config.Some? && ch.value.config.value.reactions
    ensures p.repliesEnabled <==> ch.Some? && ch.value.config.Some? && ch.value.config.value.replies
    ensures ch.None? ==> p == ActionPropsAsWritten(ch)
  {
    ActionProps(ConfigReactions(ch), ConfigReplies(ch))
  }

  /** A channel with reactions on and replies off still gets replies offered as written. */
  lemma RepliesFlagAsWrittenExample()
    ensures var ch := Some(Channel(None, Some(Config(true, false))));
      ActionPropsAsWritten(ch).repliesEnabled && !ActionPropsFor(ch).repliesEnabled
  {
  }

  /** The memo comparator: re-render only when `updated_at` changes. */
  predicate SameMessageRender(prev: Msg, next: Msg) {
    prev.updatedAt == next.updatedAt
  }

  /** Memo equality is an equivalence, and ignores every field but `updated_at`. */
  lemma SameMessageRenderProperties(a: Msg, b: Msg, c: Msg)
    ensures SameMessageRender(a, a)
    ensures SameMessageRender(a, b) ==> SameMessageRender(b, a)
    ensures SameMessageRender(a, b) && SameMessageRender(b, c) ==> SameMessageRender(a, c)
    ensures SameMessageRender(a, a.(ownReactions := b.ownReactions, reactionCounts := b.reactionCounts,
                                     status := b.status, kind := b.kind, userId := b.userId))
  {
  }
}
